=== FILE: README.md ===
# Manufacturing agent pipeline: the pure core

The repository drives a team of LLM agents that turn a technical drawing into a
manufacturing plan. Most of it is wiring around vendor SDKs. This project models
the four pieces of it that are plain logic and states what they promise:

- **File-access restrictions** (`agents.py`). A static catalog table gives each
  agent type its one readable catalog file, an ordered list of files it is told
  do not exist, and a fallback phrase. `generate_file_access_restrictions` renders
  an entry as a fixed-shape text block; `create_agent` and `create_task` append
  that block to the backstory or task description after a blank line. The
  file-reading tool goes to every agent type but the project manager.
  Modelled in `agents.dfy` (module `Agents`).
- **Drawing-spec parser** (`utils.py`, `extract_technical_specs`). A single pass
  over the stripped lines of the drawing text, with the current section as its
  state: four header fields, four key/value sections, a notes list, and headings
  that switch the section. Modelled in `drawing_specs.dfy` (module `DrawingSpecs`)
  as a reading of each line (`Classify`) and a loop over the readings (`Run`).
- **Final-plan selection** (`autogen_agents.py`, end of
  `create_manufacturing_team_chat`). The messages are scanned newest first for a
  message from `Project_Manager` whose lowered content contains `final plan`;
  failing that, the whole conversation is returned as sender/content records.
  Modelled in `team_chat.dfy` (module `TeamChat`).
- **Console sanitiser** (`config.py`, `UnicodeStreamHandler.emit`). A chain of
  seventeen single-letter `str.replace` calls that maps Vietnamese letters to
  ASCII before a log line is written. Modelled in `console.dfy` (module `Console`).

Supporting modules: `wrappers.dfy` (`Option`, `Result`), `strings.dfy` (the Python
`str` operations the model needs: `in`, `startswith`, `split`, `strip`, `lower`,
with `Find` and `Join` as helpers for stating them) and
`ordered_dict.dfy` (a Python `dict` as an insertion-ordered list of pairs).

Two facts about the restriction block that a reader might not expect:
- Point 1 is always emitted. For the project manager, whose catalog path is `""`,
  point 1 and point 3 quote the empty string (`Agents.RestrictionLayout`).
- Nothing in the code checks a catalog path against the forbidden list of its
  entry. The shipped table satisfies that condition anyway: no entry forbids its
  own catalog file (`Agents.CatalogPathsNotForbidden`).

## Model

| member | source | states |
|---|---|---|
| Agents.CatalogPathsNotForbidden | agents.py:31-82 | In the shipped table no agent type lists its own catalog file among its forbidden files, and the project manager's catalog path is empty. |
| Agents.CatalogSingleLine | agents.py:31-82 | Every path, forbidden entry and fallback phrase of the shipped table is a single line, so each renders as exactly one line of the block. |
| Agents.CatalogKeysAreAgentTypes | agents.py:21-28 | The catalog table has an entry for exactly the agent types other than the design analyzer. |
| Agents.GenerateFileAccessRestrictions | agents.py:84-129 | The result is empty exactly when the agent type has no catalog entry; otherwise it is the block of that entry. |
| Agents.RenderEntry | agents.py:100-127 | Building the block as the source does (head, one bullet appended per forbidden file, tail) yields the line-by-line block, which is never empty. |
| Agents.RestrictionLayout | agents.py:100-127 | The block has 20 lines plus one per forbidden file. The point-2 heading is line 6, the bullets follow it in table order, and then come the two fixed bullets. The catalog path is quoted in point 1 and again in point 3, even when empty. The fallback phrase sits in point 5. |
| Agents.SplitRestriction | agents.py:100-127 | Read back line by line, the block of a single-line entry gives exactly its lines. |
| Agents.BulletCount | agents.py:106-116 | The block has exactly one bullet line per forbidden file plus two. |
| Agents.HeadHasNoBullets | agents.py:100-106 | No line before the forbidden-file bullets is a bullet. |
| Agents.TailHasTwoBullets | agents.py:114-127 | After the forbidden-file bullets, only the document placeholder and the any-other-file line are bullets. |
| Agents.RestrictionTextOpensBlank | agents.py:100-101 | The block starts with a line break. |
| Agents.Compose | agents.py:159-162 | The base text is a prefix of the result and the block a suffix. The result equals the base exactly when the block is empty. |
| Agents.ComposeAsJoin | agents.py:162 | Composing equals joining the lines of the base, one blank line and the lines of the block. |
| Agents.ComposedLines | agents.py:162 | Read line by line, a composed text is the base's lines, a blank line, then the block's lines. |
| Agents.ToolsFor | agents.py:170 | The file-reading tool is given exactly when the agent type is not the project manager. |
| Agents.ToolsAgainstCatalog | agents.py:21-82 | Among the agent types, having the tool and having a catalog entry coincide except for the project manager (entry, no tool) and the design analyzer (tool, no entry). |
| Agents.CreateAgent | agents.py:143-172 | Role, goal and delegation pass through. The backstory is the given one plus a blank line and the type's block, or unchanged when the type has no entry. The tool follows the tool rule. |
| Agents.CreateTask | agents.py:467-492 | Agent, expected output and context pass through. The description is the given one plus a blank line and the type's block, or unchanged when the type has no entry. |
| DrawingSpecs.WithHeader | utils.py:149-156 | Setting one header field changes that field only. |
| DrawingSpecs.WithSectionDict | utils.py:178-186 | Updating one keyed section changes that section only. |
| DrawingSpecs.SecondPart | utils.py:150 | The value of `split(marker)[1]` is the text between the first occurrence of the marker and the next one (or the end). |
| DrawingSpecs.FirstHeader | utils.py:149-156 | The header field chosen is the first in the order PART NAME, PART NUMBER, REVISION, MATERIAL whose marker occurs anywhere in the line. |
| DrawingSpecs.HeadingOf | utils.py:159-170 | A line opens a section exactly when it equals that section's heading. |
| DrawingSpecs.HeadingsUnmarked | utils.py:149-170 | No heading contains a header marker, so the header tests never capture a heading. |
| DrawingSpecs.Classify | utils.py:144-173 | The tests run in source order. Blank and `==` lines are skipped. A line with a header marker is a header, taking the first matching field and its stripped value. Otherwise a line equal to a heading is that heading. Otherwise a line starting with `- ` is a bullet whose item is the stripped rest, and any other line is plain. Each reading holds exactly when its condition does. |
| DrawingSpecs.HeadingLine | utils.py:159-170 | A line that is exactly a heading once stripped always opens its section. |
| DrawingSpecs.KeyOf | utils.py:180-181 | The key of a keyed bullet contains no `:` and has no whitespace at either end. |
| DrawingSpecs.ValueOf | utils.py:180-181 | The value of a keyed bullet is shorter than the item and has no whitespace at either end. |
| DrawingSpecs.KeyValueAtFirstColon | utils.py:180-181 | The item splits at its first `:`: the key is the stripped text before that colon and the value the stripped text after it, later colons included. |
| DrawingSpecs.AddToDict | utils.py:179-186 | A bullet with `:` sets its stripped key to its stripped value. A bullet without `:` is appended to the `items` list. The only failure is appending to an `items` that holds a string. |
| DrawingSpecs.AddItem | utils.py:176-186 | Under NOTES the item is appended to the notes. Under a keyed section only that section changes, and header fields never change. |
| DrawingSpecs.ApplyBullet | utils.py:173-186 | With no current section a bullet changes nothing. Otherwise the section and header fields stay and the notes only grow. It fails exactly for a keyless bullet under a keyed section whose `items` is not a list. |
| DrawingSpecs.Apply | utils.py:143-186 | One line keeps every header field but the one it sets. Only a heading moves the section, and the notes only grow. A line that is not a bullet leaves the notes and every keyed section as they were. The step fails exactly for a keyless bullet under a keyed section whose `items` is a string. |
| DrawingSpecs.ApplyNotes | utils.py:173-177 | One line appends its item to the notes exactly when it is a bullet read under NOTES; otherwise the notes are unchanged. |
| DrawingSpecs.ApplyKeyLookup | utils.py:173-181 | After one line, a key other than `items` of a keyed section holds the line's value if the line is a bullet with that key read under that section, and otherwise what it held before. |
| DrawingSpecs.Run | utils.py:143-186 | Running the loop over any lines only ever adds to the notes. |
| DrawingSpecs.HeaderLastWins | utils.py:149-156 | Each header field holds the value of the last line that sets it, and is otherwise unchanged. |
| DrawingSpecs.SectionFollowsHeadings | utils.py:159-170 | The current section at the end is that of the last heading line; without one it is unchanged. |
| DrawingSpecs.SkipLinesIgnored | utils.py:144-146 | Inserting a blank or `==` line anywhere changes nothing, the current section included. |
| DrawingSpecs.NotesInOrder | utils.py:176-177 | Under NOTES, bullet items are appended in input order and the section stays NOTES. |
| DrawingSpecs.NotesCollected | utils.py:143-177 | Over any lines, the notes gain exactly the items of the bullets read while NOTES is the current section, in input order. |
| DrawingSpecs.KeyedRunLastWins | utils.py:159-181 | Over any lines, a key other than `items` of a keyed section holds the value of the last bullet with that key read under that section, and keeps its old value when there is none. |
| DrawingSpecs.ApprovalBulletsDropped | utils.py:169-178 | Under APPROVAL, any run of bullet lines leaves the parser state exactly as it was. |
| DrawingSpecs.NoSectionNoItems | utils.py:141-173 | Before any heading, no line adds anything to the notes or to a keyed section. |
| DrawingSpecs.ApplyKeyedBullet | utils.py:179-181 | A keyed bullet in a keyed section sets its key in that section. |
| DrawingSpecs.KeyedLastWins | utils.py:179-181 | Two keyed bullets with the same key in a row leave what the second alone would. |
| DrawingSpecs.NoItemsKeyNoFailure | utils.py:179-186 | The loop never fails unless some bullet uses the key `items`. |
| DrawingSpecs.ItemsThenKeyless | utils.py:179-186 | A bullet `items:<value>` followed by a keyless bullet in the same keyed section fails. |
| DrawingSpecs.ItemsBulletSetsString | utils.py:180-181 | After a bullet `items:<value>` in a keyed section, `items` holds a string. |
| DrawingSpecs.HeadersFromStart | utils.py:127-156 | From the empty record, each header field is the value of the last line setting it, or `""` when none does. |
| DrawingSpecs.NotesFromStart | utils.py:136-177 | From the empty record, the notes are the items of the bullets read under NOTES, in input order. |
| DrawingSpecs.KeyedFromStart | utils.py:127-181 | From the empty record, a key other than `items` of a keyed section is the value of the last bullet setting it under that section, and is absent when none does. |
| DrawingSpecs.UnopenedSectionKept | utils.py:159-186 | A section that is not current and whose heading never occurs gains nothing, whatever the lines. |
| DrawingSpecs.UnopenedSectionEmpty | utils.py:127-137 | From the start, a section whose heading never occurs keeps its default: `{}` for a keyed section, `[]` for the notes. |
| DrawingSpecs.NoItemsLineNoFailure | utils.py:140-188 | From the start, parsing fails only if some line reads as a bullet keyed `items`. |
| DrawingSpecs.ExtractTechnicalSpecs | utils.py:116-188 | The result is the line loop run over the split text from the empty record. Each header field is the last value set for it, or `""`. The result is never a failure unless some line is a bullet keyed `items`. |
| DrawingSpecs.ScanLines | utils.py:143-186 | Running the loop line by line gives the same outcome as the functional loop `Run`. |
| TeamChat.Got | autogen_agents.py:252-258 | `dict.get` of a missing field gives `None`; a present field is returned as it is. |
| TeamChat.Inspect | autogen_agents.py:252-253 | A message stops the scan with a plan exactly when it qualifies, carrying its content as written. It raises exactly when it comes from the project manager and its content is `None`. |
| TeamChat.ScanBack | autogen_agents.py:251-253 | A plan found by the scan contains `final plan` once lowered and is the content of a qualifying message among those scanned. A crash comes from a scanned project-manager message whose content is `None`. |
| TeamChat.ScanBackMeaning | autogen_agents.py:251-253 | The scan finds nothing exactly when no message decides. A plan comes from a qualifying message with no deciding message after it, and a crash from such a `None`-content message. |
| TeamChat.ScanBackNone | autogen_agents.py:251-253 | The scan finds nothing exactly when none of the scanned messages decides. |
| TeamChat.PlanSource | autogen_agents.py:251-253 | A plan comes from a position holding a qualifying message whose content is the plan, with no deciding message after it. |
| TeamChat.CrashSource | autogen_agents.py:251-253 | A crash comes from a position holding a project-manager message with `None` content, with no deciding message after it. |
| TeamChat.TeamResult | autogen_agents.py:250-260 | The result fails exactly when the scan raises and is a final plan exactly when the scan finds one. Otherwise it is the conversation. |
| TeamChat.SelectResult | autogen_agents.py:250-260 | The reverse loop, then the fallback loop, gives the result above. |
| TeamChat.Project | autogen_agents.py:256-260 | The conversation has one `{sender, content}` record per message, same length and order, each field read with `dict.get`. |
| TeamChat.NewestDecidingWins | autogen_agents.py:251-253 | The newest deciding message settles the scan: its content is the plan, or the scan raises. |
| TeamChat.PlanIsNewestQualifying | autogen_agents.py:251-253 | With no deciding message after it, a qualifying message's original content is the final plan. |
| TeamChat.LastQualifyingWins | autogen_agents.py:251-253 | A qualifying last message is the plan, whatever precedes it. |
| TeamChat.NoPlanGivesConversation | autogen_agents.py:255-260 | With no deciding message, the result is the conversation, one record per message in order. |
| TeamChat.OtherSendersIgnored | autogen_agents.py:252 | Inserting a message from anyone but the project manager anywhere never changes the scan's verdict (plan, crash or none). |
| TeamChat.ScanPrefix | autogen_agents.py:251 | The scan over a prefix looks only at that prefix. |
| TeamChat.AnyCaseQualifies | autogen_agents.py:252 | A project-manager message containing `final plan` in any letter case qualifies. |
| TeamChat.MissingContentUndecided | autogen_agents.py:252 | A message without content reads as empty and never stops the scan. |
| TeamChat.LoweredContentSameVerdict | autogen_agents.py:252 | Lower-casing the content beforehand does not change whether a message qualifies. |
| Console.Replace | config.py:34 | One `str.replace` of one character keeps the length and changes exactly the positions holding that character. |
| Console.Scrub | config.py:34-39 | The sanitised message has the same length, and each character is the per-letter map of the input character at that position. |
| Console.ChainAt | config.py:34-39 | Each output position of the chain is the chain applied to the input character at that position alone. |
| Console.ChainIsFold | config.py:34-39 | The sequential chain on one character equals the single per-letter map, because no replacement produces a letter a later replacement reads. |
| Console.ChainIsFoldEverywhere | config.py:34-39 | The seventeen replacements in source order give the per-letter map applied position by position. |
| Console.AsciiFold | config.py:34-39 | A character changes exactly when it is one of the seventeen listed letters, and the result is never a listed letter. |
| Console.ListedBecomeAscii | config.py:34-39 | Each listed letter becomes one of D, d, a, e, o, u. |
| Console.ScrubRemovesListed | config.py:34-39 | No listed letter survives, and every other character is kept in place. |
| Console.ScrubKeepsUnlisted | config.py:34-39 | A message without listed letters is written unchanged. |
| Console.ScrubIdempotent | config.py:34-39 | Sanitising twice is sanitising once. |
| Console.ScrubConcat | config.py:34-39 | A message can be sanitised in pieces: the chain distributes over concatenation. |
| Console.OtherMarksKept | config.py:34-39 | Unlisted Vietnamese letters such as ệ, ạ and the capital Ư are left as they are. |
| Strings.Contains | utils.py:149 | `pat in s` holds exactly when the pattern occurs at some position of the text. |
| Strings.StartsWith | utils.py:173 | `s.startswith(p)` holds exactly when `p` is no longer than `s` and matches it character by character from the start, that is when `p` occurs at position 0. The same test skips `==` lines at line 145. |
| Strings.Lower | autogen_agents.py:252 | Lowering keeps the length and leaves no ASCII capital. Every capital A to Z becomes the lower-case letter 32 code points above it, and every other character is kept. |
| Strings.Split | utils.py:140 | `split('\n')` gives at least one part, no part holds the separator, and joining the parts gives back the text. |
| Strings.SplitJoin | utils.py:140 | Splitting undoes joining when no part holds the separator. |
| Strings.Strip | utils.py:144 | The stripped line neither starts nor ends with whitespace. |
| Strings.StripIdempotent | utils.py:144 | Stripping twice is stripping once. |
| OrderedDict.Get | utils.py:184 | A lookup finds a value exactly when the key is present, and the value found is the one paired with it. |
| OrderedDict.Set | utils.py:181 | Assignment keeps the key order: an existing key stays where it is, and a new key goes last. |
| OrderedDict.SetGetSame | utils.py:181 | After `d[k] = v`, looking up `k` gives `v`. |
| OrderedDict.SetGetOther | utils.py:181 | After `d[k] = v`, every other key keeps its value. |
| OrderedDict.SetKeepsKeysUnique | utils.py:181 | Assignment keeps the keys distinct. |

## Left out

- LLM and agent construction: `get_llm`, the crewAI `Agent`/`Task`/`Crew` objects, the prose of each agent and task factory, and the `verbose` and `llm` arguments. These are vendor-SDK calls; the model keeps the composition rule and the tool rule.
- The file-reading tool object itself: the model records only whether an agent gets it. The restriction block is prompt text; nothing limits what the tool opens.
- Drawing file loading, JSON persistence and its encoder, and the machining-time estimate. These are file I/O, PDF extraction and floating-point arithmetic outside the pure core.
- The AutoGen chat itself: its setup, the code-execution agent and the run. The message list it produces is the input of `TeamChat`.
- Message fields holding values other than a string or `None`. A non-string content of a project-manager message makes `.lower()` raise in the source; the model has only absent, `None` and string fields.
- Environment reading, logging configuration and the stream write in `emit`. The handler is installed only on Windows; the model covers the character chain it applies.
- The command-line entry points: argument parsing, orchestration and console printing.
- Strings.Lower: maps only the ASCII capitals A to Z. Python's `lower()` also folds other capitals. Of those, only the Kelvin sign and the dotted capital I lower to ASCII letters (`k`, and `i` followed by a combining dot), and neither can complete `final plan`, so the final-plan test comes out the same.
- Strings.Strip: its contract states only that the result is shorter and has no edge whitespace. That it removes exactly the leading and trailing whitespace follows from `TrimStart` and `TrimEnd`, whose contracts say so.
- DrawingSpecs.Run: its own contract states only that the notes never shrink. What the loop computes is stated by `HeaderLastWins`, `SectionFollowsHeadings`, `NotesCollected` and `KeyedRunLastWins`.
- DrawingSpecs.KeyedRunLastWins: stated for keys other than `items`. The `items` list is stated one line at a time by `AddToDict`, `ApplyKeepsItemsList` and `ItemsBulletSetsString`.
- Python strings holding lone surrogates (U+D800 to U+DFFF): a Dafny `char` is a Unicode scalar value, so every modelled string is one without them.

=== FILE: agents.dfy ===
/**
 The file-access restriction mechanism of the agent pipeline: the static catalog
 table, the restriction block rendered from one table entry, and the way an
 agent's backstory and a task's description are composed with that block.
 The restrictions are advisory prompt text only; nothing here limits what the
 file-reading tool can actually open.
 */
module Agents {
  import opened Wrappers
  import opened Strings

  // The agent type identifiers (AGENT_TYPES).
  const DesignAnalyzer: string := "design_analyzer"
  const MaterialsEngineer: string := "materials_engineer"
  const ToolingSpecialist: string := "tooling_specialist"
  const ProcessPlanner: string := "process_planner"
  const QualityEngineer: string := "quality_engineer"
  const ProjectManager: string := "project_manager"

  /** One catalog table entry: the one file an agent may read, the files it is told
      do not exist (in table order), and what to fall back on. */
  datatype CatalogEntry = CatalogEntry(catalogPath: string, forbiddenFiles: seq<string>, fallbackGuidance: string)

  // The entries of the catalog table. The process planner's annotated entries are
  // written as a file name followed by its annotation.
  const MaterialsEntry: CatalogEntry := CatalogEntry(
    "materials_catalogs/SC-2023-A001.txt",
    [ "materials_catalogs/materials_summary.txt",
      "materials_catalogs/AISI_4140.txt",
      "materials_catalogs/alloy_steel.txt" ],
    "standard material properties")
  const ToolingEntry: CatalogEntry := CatalogEntry(
    "tooling_catalogs/SC-2023-A001.txt",
    [ "tooling_catalogs/tooling_summary.txt",
      "tooling_catalogs/cutting_tools.txt",
      "tooling_catalogs/fixtures.txt" ],
    "standard tooling knowledge")
  const EitherSlash: string := " (with or without leading slash)"
  const LeadingSlash: string := " (with leading slash)"
  const ProcessEntry: CatalogEntry := CatalogEntry(
    "process_standards/SC-2023-A001.txt",
    [ "tooling_recommendations.txt" + EitherSlash,
      "/tooling_recommendations.txt" + LeadingSlash,
      "detailed_tooling_recommendations.txt" + EitherSlash,
      "/detailed_tooling_recommendations.txt" + LeadingSlash,
      "process_standards/general_machining.txt",
      "process_standards/cutting_parameters.txt" ],
    "standard manufacturing practices")
  const QualityEntry: CatalogEntry := CatalogEntry(
    "quality_standards/SC-2023-A001.txt",
    [ "quality_standards/general_standards.txt",
      "quality_standards/inspection_methods.txt",
      "quality_standards/acceptance_criteria.txt" ],
    "standard quality practices")
  // The project manager has no catalog of its own: its catalog path is empty.
  const ProjectManagerEntry: CatalogEntry := CatalogEntry(
    "",
    [ "/path/to/manufacturing_plan_document.txt",
      "/material_selection_analysis.txt",
      "/tooling_recommendations.txt",
      "/process_plan.txt",
      "/quality_assessment.txt" ],
    "standard project management practices")

  /** The catalog table (CATALOG_CONFIG). The design analyzer has no entry. */
  const CatalogConfig: map<string, CatalogEntry> := map[
    MaterialsEngineer := MaterialsEntry,
    ToolingSpecialist := ToolingEntry,
    ProcessPlanner := ProcessEntry,
    QualityEngineer := QualityEntry,
    ProjectManager := ProjectManagerEntry
  ]

  // The fixed lines of the restriction block, with their exact indentation and
  // trailing blanks. Lines that carry an entry's data are built from an opening
  // and a closing fragment around it. Long lines are written as several shorter
  // literals joined with `+`.
  const Title: string :=
    "        IMPORTANT FILE ACCESS "
    + "RESTRICTIONS:"
  const Gap8: string := "        "
  const Gap11: string := "           "
  const Point1: string :=
    "        1. DO NOT attempt to "
    + "access ANY files EXCEPT for the "
    + "specific part catalog at:"
  const PathOpen: string := "           \""
  const PathClose: string := "\""
  const Point2: string :=
    "        2. DO NOT attempt to "
    + "access these files (they DO NOT "
    + "exist):"
  const BulletOpen: string := "           - "
  const DocumentPlaceholder: string := "\"/path/to/document.txt\""
  const AnyOtherFile: string :=
    "Any other file not explicitly "
    + "listed in point #1"
  const Point3Open: string :=
    "        3. If the specific "
    + "catalog file \""
  const Point3Close: string := "\" is not found, "
  const Point3b: string :=
    "           DO NOT try other "
    + "files - instead, rely solely on "
    + "your internal knowledge and "
  const Point3c: string :=
    "           the information "
    + "provided in the context from "
    + "previous agents."
  const Point4a: string :=
    "        4. Use ONLY the "
    + "information provided directly "
    + "in your context from previous "
    + "agents and "
  const Point4b: string :=
    "           the single "
    + "authorized catalog file."
  const Point5a: string :=
    "        5. If you need "
    + "information that is not "
    + "available in the context or the "
    + "authorized catalog file,"
  const GuidanceOpen: string :=
    "           make reasonable "
    + "assumptions based on "
  const GuidanceClose: string := " rather than trying to"
  const Point5c: string :=
    "           access other "
    + "unauthorized files."

  /** The bullet line listing one file. */
  function BulletLine(entry: string): string {
    BulletOpen + entry
  }

  /** Everything up to and including the point-2 heading. */
  function HeadLines(path: string): seq<string> {
    ["", Title, Gap8, Point1, PathOpen + path + PathClose, Gap11, Point2]
  }

  /** One bullet line per file, in order. */
  function BulletLines(files: seq<string>): (lines: seq<string>)
    ensures |lines| == |files|
  {
    seq(|files|, i requires 0 <= i < |files| => BulletLine(files[i]))
  }

  /** The two closing bullets and points 3 to 5. */
  function TailLines(path: string, guidance: string): seq<string> {
    [ BulletLine(DocumentPlaceholder),
      BulletLine(AnyOtherFile),
      Gap8,
      Point3Open + path + Point3Close,
      Point3b,
      Point3c,
      Gap8,
      Point4a,
      Point4b,
      Gap8,
      Point5a,
      GuidanceOpen + guidance + GuidanceClose,
      Point5c ]
  }

  /** The restriction block of one entry, line by line. */
  function RestrictionLines(e: CatalogEntry): seq<string> {
    HeadLines(e.catalogPath) + BulletLines(e.forbiddenFiles) + TailLines(e.catalogPath, e.fallbackGuidance)
  }

  /** No field of the entry spans more than one line. */
  predicate SingleLine(e: CatalogEntry) {
    SingleLineFields(e) && SingleLineFiles(e.forbiddenFiles)
  }

  predicate SingleLineFields(e: CatalogEntry) {
    '\n' !in e.catalogPath && '\n' !in e.fallbackGuidance
  }

  predicate SingleLineFiles(files: seq<string>) {
    forall i :: 0 <= i < |files| ==> '\n' !in files[i]
  }

  // The long fixed fragments contain no line break; one lemma per literal keeps the
  // proofs small.
  lemma TitlePart0Single() ensures '\n' !in "        IMPORTANT FILE ACCESS " {}
  lemma TitlePart1Single() ensures '\n' !in "RESTRICTIONS:" {}
  lemma TitleSingle() ensures '\n' !in Title { TitlePart0Single(); TitlePart1Single(); }
  lemma Point1Part0Single() ensures '\n' !in "        1. DO NOT attempt to " {}
  lemma Point1Part1Single() ensures '\n' !in "access ANY files EXCEPT for the " {}
  lemma Point1Part2Single() ensures '\n' !in "specific part catalog at:" {}
  lemma Point1Single() ensures '\n' !in Point1 { Point1Part0Single(); Point1Part1Single(); Point1Part2Single(); }
  lemma Point2Part0Single() ensures '\n' !in "        2. DO NOT attempt to " {}
  lemma Point2Part1Single() ensures '\n' !in "access these files (they DO NOT " {}
  lemma Point2Part2Single() ensures '\n' !in "exist):" {}
  lemma Point2Single() ensures '\n' !in Point2 { Point2Part0Single(); Point2Part1Single(); Point2Part2Single(); }
  lemma AnyOtherFilePart0Single() ensures '\n' !in "Any other file not explicitly " {}
  lemma AnyOtherFilePart1Single() ensures '\n' !in "listed in point #1" {}
  lemma AnyOtherFileSingle() ensures '\n' !in AnyOtherFile { AnyOtherFilePart0Single(); AnyOtherFilePart1Single(); }
  lemma Point3OpenPart0Single() ensures '\n' !in "        3. If the specific " {}
  lemma Point3OpenPart1Single() ensures '\n' !in "catalog file \"" {}
  lemma Point3OpenSingle() ensures '\n' !in Point3Open { Point3OpenPart0Single(); Point3OpenPart1Single(); }
  lemma Point3bPart0Single() ensures '\n' !in "           DO NOT try other " {}
  lemma Point3bPart1Single() ensures '\n' !in "files - instead, rely solely on " {}
  lemma Point3bPart2Single() ensures '\n' !in "your internal knowledge and " {}
  lemma Point3bSingle() ensures '\n' !in Point3b { Point3bPart0Single(); Point3bPart1Single(); Point3bPart2Single(); }
  lemma Point3cPart0Single() ensures '\n' !in "           the information " {}
  lemma Point3cPart1Single() ensures '\n' !in "provided in the context from " {}
  lemma Point3cPart2Single() ensures '\n' !in "previous agents." {}
  lemma Point3cSingle() ensures '\n' !in Point3c { Point3cPart0Single(); Point3cPart1Single(); Point3cPart2Single(); }
  lemma Point4aPart0Single() ensures '\n' !in "        4. Use ONLY the " {}
  lemma Point4aPart1Single() ensures '\n' !in "information provided directly " {}
  lemma Point4aPart2Single() ensures '\n' !in "in your context from previous " {}
  lemma Point4aPart3Single() ensures '\n' !in "agents and " {}
  lemma Point4aSingle() ensures '\n' !in Point4a { Point4aPart0Single(); Point4aPart1Single(); Point4aPart2Single(); Point4aPart3Single(); }
  lemma Point4bPart0Single() ensures '\n' !in "           the single " {}
  lemma Point4bPart1Single() ensures '\n' !in "authorized catalog file." {}
  lemma Point4bSingle() ensures '\n' !in Point4b { Point4bPart0Single(); Point4bPart1Single(); }
  lemma Point5aPart0Single() ensures '\n' !in "        5. If you need " {}
  lemma Point5aPart1Single() ensures '\n' !in "information that is not " {}
  lemma Point5aPart2Single() ensures '\n' !in "available in the context or the " {}
  lemma Point5aPart3Single() ensures '\n' !in "authorized catalog file," {}
  lemma Point5aSingle() ensures '\n' !in Point5a { Point5aPart0Single(); Point5aPart1Single(); Point5aPart2Single(); Point5aPart3Single(); }
  lemma GuidanceOpenPart0Single() ensures '\n' !in "           make reasonable " {}
  lemma GuidanceOpenPart1Single() ensures '\n' !in "assumptions based on " {}
  lemma GuidanceOpenSingle() ensures '\n' !in GuidanceOpen { GuidanceOpenPart0Single(); GuidanceOpenPart1Single(); }
  lemma Point5cPart0Single() ensures '\n' !in "           access other " {}
  lemma Point5cPart1Single() ensures '\n' !in "unauthorized files." {}
  lemma Point5cSingle() ensures '\n' !in Point5c { Point5cPart0Single(); Point5cPart1Single(); }

  /** The fixed lines of the block contain no line break. */
  lemma FixedLinesSingle(path: string, guidance: string)
    requires '\n' !in path && '\n' !in guidance
    ensures forall k :: 0 <= k < |HeadLines(path)| ==> '\n' !in HeadLines(path)[k]
    ensures forall k :: 0 <= k < |TailLines(path, guidance)| ==> '\n' !in TailLines(path, guidance)[k]
  {
    TitleSingle();
    Point1Single();
    Point2Single();
    AnyOtherFileSingle();
    Point3OpenSingle();
    Point3bSingle();
    Point3cSingle();
    Point4aSingle();
    Point4bSingle();
    Point5aSingle();
    GuidanceOpenSingle();
    Point5cSingle();
  }

  /** When the fields of an entry are single lines, so is every line of its block. */
  lemma RestrictionLinesSingle(e: CatalogEntry)
    requires SingleLine(e)
    ensures forall k :: 0 <= k < |RestrictionLines(e)| ==> '\n' !in RestrictionLines(e)[k]
  {
    var lines := RestrictionLines(e);
    var n := |e.forbiddenFiles|;
    FixedLinesSingle(e.catalogPath, e.fallbackGuidance);
    forall k | 0 <= k < |lines|
      ensures '\n' !in lines[k]
    {
      if k < 7 {
        assert lines[k] == HeadLines(e.catalogPath)[k];
      } else if k < 7 + n {
        assert lines[k] == BulletOpen + e.forbiddenFiles[k - 7];
      } else {
        assert lines[k] == TailLines(e.catalogPath, e.fallbackGuidance)[k - 7 - n];
      }
    }
  }

  /** Splitting the block of an entry whose fields are single lines at line breaks
      gives back its lines. */
  lemma SplitRestriction(e: CatalogEntry)
    requires SingleLine(e)
    ensures Split(RestrictionText(e), '\n') == RestrictionLines(e)
  {
    RestrictionLinesSingle(e);
    SplitJoin(RestrictionLines(e), '\n');
  }

  /** The block of an entry as one string, the form in which it enters a prompt. */
  function RestrictionText(e: CatalogEntry): string {
    Join(RestrictionLines(e), '\n')
  }

  /** generate_file_access_restrictions: the restriction block of an agent type, or
      the empty string when the type has no catalog entry. The text is built as the
      source builds it: the head template, then one bullet per forbidden file in
      table order, then the tail template. */
  method GenerateFileAccessRestrictions(agentType: string) returns (text: string)
    ensures text == "" <==> agentType !in CatalogConfig
    ensures agentType in CatalogConfig ==> text == RestrictionText(CatalogConfig[agentType])
  {
    if agentType !in CatalogConfig {
      return "";
    }
    text := RenderEntry(CatalogConfig[agentType]);
  }

  /** The rendering loop for one entry; the block it yields is never empty. */
  method RenderEntry(config: CatalogEntry) returns (text: string)
    ensures text == RestrictionText(config)
    ensures text != ""
  {
    var head := HeadLines(config.catalogPath);
    var files := config.forbiddenFiles;
    text := Join(head, '\n');
    var i := 0;
    assert head + BulletLines(files[..0]) == head;
    while i < |files|
      invariant 0 <= i <= |files|
      invariant text == Join(head + BulletLines(files[..i]), '\n')
    {
      assert head + BulletLines(files[..i + 1]) == (head + BulletLines(files[..i])) + [BulletLine(files[i])];
      JoinSnoc(head + BulletLines(files[..i]), BulletLine(files[i]), '\n');
      text := text + "\n" + BulletOpen + files[i];
      i := i + 1;
    }
    var tail := TailLines(config.catalogPath, config.fallbackGuidance);
    assert files[..i] == files;
    JoinConcat(head + BulletLines(files), tail, '\n');
    text := text + "\n" + Join(tail, '\n');
    RestrictionTextOpensBlank(config);
  }

  /** The layout of a block: seven head lines ending with the point-2 heading, one
      bullet per forbidden file in table order, the two fixed bullets, then points
      3 to 5. The catalog path sits on line 4 and again in point 3, even when it is
      empty, and the fallback guidance sits in point 5. */
  lemma RestrictionLayout(e: CatalogEntry)
    ensures |RestrictionLines(e)| == |e.forbiddenFiles| + 20
    ensures RestrictionLines(e)[4] == PathOpen + e.catalogPath + PathClose
    ensures RestrictionLines(e)[6] == Point2
    ensures forall i :: 0 <= i < |e.forbiddenFiles| ==> RestrictionLines(e)[7 + i] == BulletOpen + e.forbiddenFiles[i]
    ensures RestrictionLines(e)[|e.forbiddenFiles| + 7] == BulletOpen + DocumentPlaceholder
    ensures RestrictionLines(e)[|e.forbiddenFiles| + 8] == BulletOpen + AnyOtherFile
    ensures RestrictionLines(e)[|e.forbiddenFiles| + 10] == Point3Open + e.catalogPath + Point3Close
    ensures RestrictionLines(e)[|e.forbiddenFiles| + 18] == GuidanceOpen + e.fallbackGuidance + GuidanceClose
  {
  }

  /** The lines of a restriction block that are bullets. */
  function CountBullets(lines: seq<string>): nat {
    if lines == [] then 0
    else (if StartsWith(lines[0], BulletOpen) then 1 else 0) + CountBullets(lines[1..])
  }

  lemma {:induction false} CountBulletsConcat(a: seq<string>, b: seq<string>)
    ensures CountBullets(a + b) == CountBullets(a) + CountBullets(b)
    decreases |a|
  {
    if a == [] {
      assert a + b == b;
    } else {
      assert (a + b)[1..] == a[1..] + b;
      CountBulletsConcat(a[1..], b);
    }
  }

  /** A line that differs from the bullet opening at some index within it is not a bullet. */
  lemma NotBullet(s: string, k: nat)
    requires k < |BulletOpen|
    requires k >= |s| || s[k] != BulletOpen[k]
    ensures !StartsWith(s, BulletOpen)
  {
  }

  lemma {:induction false} CountNoBullets(lines: seq<string>)
    requires forall k :: 0 <= k < |lines| ==> !StartsWith(lines[k], BulletOpen)
    ensures CountBullets(lines) == 0
    decreases |lines|
  {
    if lines != [] {
      CountNoBullets(lines[1..]);
    }
  }

  lemma {:induction false} CountAllBullets(lines: seq<string>)
    requires forall k :: 0 <= k < |lines| ==> StartsWith(lines[k], BulletOpen)
    ensures CountBullets(lines) == |lines|
    decreases |lines|
  {
    if lines != [] {
      CountAllBullets(lines[1..]);
    }
  }

  /** None of the head lines is a bullet. */
  lemma HeadHasNoBullets(path: string)
    ensures CountBullets(HeadLines(path)) == 0
  {
    var l := HeadLines(path);
    forall k | 0 <= k < |l|
      ensures !StartsWith(l[k], BulletOpen)
    {
      assert BulletOpen[8] == ' ' && BulletOpen[11] == '-';
      if k == 1 {
        assert l[k][8] == 'I';
      } else if k == 3 {
        assert l[k][8] == '1';
      } else if k == 4 {
        assert l[k][11] == '"';
      } else if k == 6 {
        assert l[k][8] == '2';
      }
      NotBullet(l[k], if k == 4 || k == 5 then 11 else 8);
    }
    CountNoBullets(l);
  }

  /** Only the first two tail lines are bullets. */
  lemma TailHasTwoBullets(path: string, guidance: string)
    ensures CountBullets(TailLines(path, guidance)) == 2
  {
    var l := TailLines(path, guidance);
    TailRestNotBullets(path, guidance);
    CountNoBullets(l[2..]);
    assert l == l[..2] + l[2..];
    CountBulletsConcat(l[..2], l[2..]);
    CountAllBullets(l[..2]);
  }

  /** The tail lines after the two fixed bullets. */
  lemma TailRestNotBullets(path: string, guidance: string)
    ensures forall k :: 2 <= k < |TailLines(path, guidance)| ==> !StartsWith(TailLines(path, guidance)[k], BulletOpen)
  {
    var l := TailLines(path, guidance);
    forall k | 2 <= k < |l|
      ensures !StartsWith(l[k], BulletOpen)
    {
      if k == 3 {
        assert l[k][8] == '3';
      } else if k == 11 {
        assert l[k][11] == 'm';
      }
      NotBullet(l[k], if k in {4, 5, 8, 11, 12} then 11 else 8);
    }
  }

  /** A block has exactly one bullet line per forbidden file plus the two fixed ones. */
  lemma BulletCount(e: CatalogEntry)
    requires SingleLine(e)
    ensures CountBullets(Split(RestrictionText(e), '\n')) == |e.forbiddenFiles| + 2
  {
    SplitRestriction(e);
    var head := HeadLines(e.catalogPath);
    var bullets := BulletLines(e.forbiddenFiles);
    var tail := TailLines(e.catalogPath, e.fallbackGuidance);
    CountBulletsConcat(head + bullets, tail);
    CountBulletsConcat(head, bullets);
    HeadHasNoBullets(e.catalogPath);
    TailHasTwoBullets(e.catalogPath, e.fallbackGuidance);
    CountAllBullets(bullets);
  }

  /** No shipped entry lists its own catalog file among its forbidden files; the
      project manager's catalog path is the empty string. */
  lemma CatalogPathsNotForbidden()
    ensures forall t :: t in CatalogConfig ==> CatalogConfig[t].catalogPath !in CatalogConfig[t].forbiddenFiles
    ensures CatalogConfig[ProjectManager].catalogPath == ""
  {
  }

  // Each literal of the shipped table holds no line break; one lemma per literal keeps
  // every proof small.
  lemma EitherSlashSingle() ensures '\n' !in " (with or without leading slash)" {}
  lemma LeadingSlashSingle() ensures '\n' !in " (with leading slash)" {}
  lemma MaterialsPathSingle() ensures '\n' !in "materials_catalogs/SC-2023-A001.txt" {}
  lemma MaterialsGuidanceSingle() ensures '\n' !in "standard material properties" {}
  lemma MaterialsFile0Single() ensures '\n' !in "materials_catalogs/materials_summary.txt" {}
  lemma MaterialsFile1Single() ensures '\n' !in "materials_catalogs/AISI_4140.txt" {}
  lemma MaterialsFile2Single() ensures '\n' !in "materials_catalogs/alloy_steel.txt" {}
  lemma ToolingPathSingle() ensures '\n' !in "tooling_catalogs/SC-2023-A001.txt" {}
  lemma ToolingGuidanceSingle() ensures '\n' !in "standard tooling knowledge" {}
  lemma ToolingFile0Single() ensures '\n' !in "tooling_catalogs/tooling_summary.txt" {}
  lemma ToolingFile1Single() ensures '\n' !in "tooling_catalogs/cutting_tools.txt" {}
  lemma ToolingFile2Single() ensures '\n' !in "tooling_catalogs/fixtures.txt" {}
  lemma ProcessPathSingle() ensures '\n' !in "process_standards/SC-2023-A001.txt" {}
  lemma ProcessGuidanceSingle() ensures '\n' !in "standard manufacturing practices" {}
  lemma ProcessFile0Single() ensures '\n' !in "tooling_recommendations.txt" {}
  lemma ProcessFile1Single() ensures '\n' !in "/tooling_recommendations.txt" {}
  lemma ProcessFile2Single() ensures '\n' !in "detailed_tooling_recommendations.txt" {}
  lemma ProcessFile3Single() ensures '\n' !in "/detailed_tooling_recommendations.txt" {}
  lemma ProcessFile4Single() ensures '\n' !in "process_standards/general_machining.txt" {}
  lemma ProcessFile5Single() ensures '\n' !in "process_standards/cutting_parameters.txt" {}
  lemma QualityPathSingle() ensures '\n' !in "quality_standards/SC-2023-A001.txt" {}
  lemma QualityGuidanceSingle() ensures '\n' !in "standard quality practices" {}
  lemma QualityFile0Single() ensures '\n' !in "quality_standards/general_standards.txt" {}
  lemma QualityFile1Single() ensures '\n' !in "quality_standards/inspection_methods.txt" {}
  lemma QualityFile2Single() ensures '\n' !in "quality_standards/acceptance_criteria.txt" {}
  lemma ProjectManagerPathSingle() ensures '\n' !in "" {}
  lemma ProjectManagerGuidanceSingle() ensures '\n' !in "standard project management practices" {}
  lemma ProjectManagerFile0Single() ensures '\n' !in "/path/to/manufacturing_plan_document.txt" {}
  lemma ProjectManagerFile1Single() ensures '\n' !in "/material_selection_analysis.txt" {}
  lemma ProjectManagerFile2Single() ensures '\n' !in "/tooling_recommendations.txt" {}
  lemma ProjectManagerFile3Single() ensures '\n' !in "/process_plan.txt" {}
  lemma ProjectManagerFile4Single() ensures '\n' !in "/quality_assessment.txt" {}

  lemma MaterialsEntrySingle() ensures SingleLine(MaterialsEntry) {
    MaterialsPathSingle();
    MaterialsGuidanceSingle();
    MaterialsFile0Single();
    MaterialsFile1Single();
    MaterialsFile2Single();
  }
  lemma ToolingEntrySingle() ensures SingleLine(ToolingEntry) {
    ToolingPathSingle();
    ToolingGuidanceSingle();
    ToolingFile0Single();
    ToolingFile1Single();
    ToolingFile2Single();
  }
  lemma ProcessEntrySingle() ensures SingleLine(ProcessEntry) {
    ProcessPathSingle();
    ProcessGuidanceSingle();
    EitherSlashSingle();
    LeadingSlashSingle();
    ProcessFile0Single();
    ProcessFile1Single();
    ProcessFile2Single();
    ProcessFile3Single();
    ProcessFile4Single();
    ProcessFile5Single();
  }
  lemma QualityEntrySingle() ensures SingleLine(QualityEntry) {
    QualityPathSingle();
    QualityGuidanceSingle();
    QualityFile0Single();
    QualityFile1Single();
    QualityFile2Single();
  }
  lemma ProjectManagerEntrySingle() ensures SingleLine(ProjectManagerEntry) {
    ProjectManagerPathSingle();
    ProjectManagerGuidanceSingle();
    ProjectManagerFile0Single();
    ProjectManagerFile1Single();
    ProjectManagerFile2Single();
    ProjectManagerFile3Single();
    ProjectManagerFile4Single();
  }

  /** Every field of every shipped entry is a single line. */
  lemma CatalogSingleLine()
    ensures forall t :: t in CatalogConfig ==> SingleLine(CatalogConfig[t])
  {
    MaterialsEntrySingle();
    ToolingEntrySingle();
    ProcessEntrySingle();
    QualityEntrySingle();
    ProjectManagerEntrySingle();
  }

  /** AGENT_TYPES: the symbolic name of each agent type. */
  const AgentTypes: map<string, string> := map[
    "DESIGN_ANALYZER" := DesignAnalyzer,
    "MATERIALS_ENGINEER" := MaterialsEngineer,
    "TOOLING_SPECIALIST" := ToolingSpecialist,
    "PROCESS_PLANNER" := ProcessPlanner,
    "QUALITY_ENGINEER" := QualityEngineer,
    "PROJECT_MANAGER" := ProjectManager
  ]

  /** Every agent type has a catalog entry except the design analyzer, and the table
      has no entry for anything that is not an agent type. */
  lemma CatalogKeysAreAgentTypes()
    ensures CatalogConfig.Keys == AgentTypes.Values - {DesignAnalyzer}
    ensures DesignAnalyzer in AgentTypes.Values
  {
    assert AgentTypes["DESIGN_ANALYZER"] == DesignAnalyzer;
    assert AgentTypes["MATERIALS_ENGINEER"] == MaterialsEngineer;
    assert AgentTypes["TOOLING_SPECIALIST"] == ToolingSpecialist;
    assert AgentTypes["PROCESS_PLANNER"] == ProcessPlanner;
    assert AgentTypes["QUALITY_ENGINEER"] == QualityEngineer;
    assert AgentTypes["PROJECT_MANAGER"] == ProjectManager;
  }

  /** How a restriction block is attached to a backstory or a task description: after
      a blank line when the block is non-empty; otherwise the text is left as it is. */
  function Compose(base: string, restrictions: string): (r: string)
    ensures StartsWith(r, base)
    ensures r == base <==> restrictions == ""
    ensures |restrictions| <= |r| && r[|r| - |restrictions|..] == restrictions
  {
    if restrictions != "" then base + "\n\n" + restrictions else base
  }

  /** Read line by line, a text composed with the block of an entry is the lines of
      the text, one blank line, and the lines of the block, whose first line is blank
      too. */
  lemma ComposedLines(base: string, e: CatalogEntry)
    requires SingleLine(e)
    ensures Split(Compose(base, RestrictionText(e)), '\n') == Split(base, '\n') + [""] + RestrictionLines(e)
  {
    var all := Split(base, '\n') + [""] + RestrictionLines(e);
    ComposeAsJoin(base, e);
    RestrictionLinesSingle(e);
    assert forall k :: 0 <= k < |all| ==> '\n' !in all[k];
    SplitJoin(all, '\n');
  }

  /** The composed text is the lines of the text, a blank line and the lines of the
      block, joined. */
  lemma ComposeAsJoin(base: string, e: CatalogEntry)
    ensures Compose(base, RestrictionText(e)) == Join(Split(base, '\n') + [""] + RestrictionLines(e), '\n')
  {
    RestrictionTextOpensBlank(e);
    ComposeJoined(base, RestrictionText(e), RestrictionLines(e));
  }

  /** Composing with a non-empty text made of lines adds a blank line and those lines. */
  lemma ComposeJoined(base: string, text: string, lines: seq<string>)
    requires |lines| >= 1 && text == Join(lines, '\n') && text != ""
    ensures Compose(base, text) == Join(Split(base, '\n') + [""] + lines, '\n')
  {
    JoinAroundEmpty(Split(base, '\n'), lines, '\n');
    assert ['\n', '\n'] == "\n\n";
  }

  /** The block starts with a line break: its first line is blank. */
  lemma RestrictionTextOpensBlank(e: CatalogEntry)
    ensures RestrictionText(e) == "\n" + Join(RestrictionLines(e)[1..], '\n')
  {
    var lines := RestrictionLines(e);
    JoinCons(lines[0], lines[1..], '\n');
    assert lines == [lines[0]] + lines[1..];
  }

  /** The tools an agent is given. */
  datatype Tool = FileRead

  /** The tool rule of create_agent: the file-reading tool for every agent type
      except the project manager, which gets no tool. */
  function ToolsFor(agentType: string): (tools: seq<Tool>)
    ensures FileRead in tools <==> agentType != ProjectManager
    ensures |tools| <= 1
  {
    if agentType != ProjectManager then [FileRead] else []
  }

  /** The tool rule and the catalog table disagree in two places: the project manager
      has a catalog entry but no tool, and the design analyzer has the tool but no
      entry. Every other agent type has both. */
  lemma ToolsAgainstCatalog()
    ensures forall t :: t in AgentTypes.Values ==>
      (FileRead in ToolsFor(t) <==> (t in CatalogConfig) != (t in {ProjectManager, DesignAnalyzer}))
  {
    CatalogKeysAreAgentTypes();
  }

  /** The part of a crewAI agent that the model keeps. */
  datatype AgentSpec = AgentSpec(role: string, goal: string, backstory: string, allowDelegation: bool, tools: seq<Tool>)

  /** The part of a crewAI task that the model keeps; `context` is the optional list
      of tasks whose output it reads. */
  datatype TaskSpec = TaskSpec(description: string, agent: AgentSpec, expectedOutput: string, context: Option<seq<TaskSpec>>)

  /** create_agent: the backstory gets the restriction block of the agent type, and
      the tool list follows the tool rule. */
  method CreateAgent(agentType: string, role: string, goal: string, backstoryContent: string, allowDelegation: bool)
    returns (agent: AgentSpec)
    ensures agent.role == role && agent.goal == goal && agent.allowDelegation == allowDelegation
    ensures StartsWith(agent.backstory, backstoryContent)
    ensures agent.backstory == backstoryContent <==> agentType !in CatalogConfig
    ensures agentType in CatalogConfig ==>
      agent.backstory == backstoryContent + "\n\n" + RestrictionText(CatalogConfig[agentType])
    ensures FileRead in agent.tools <==> agentType != ProjectManager
  {
    var restrictions := GenerateFileAccessRestrictions(agentType);
    agent := AgentSpec(role, goal, Compose(backstoryContent, restrictions), allowDelegation, ToolsFor(agentType));
  }

  /** create_task: the description gets the restriction block of the agent type; the
      agent, expected output and context are passed through. */
  method CreateTask(agentType: string, agent: AgentSpec, descriptionContent: string, expectedOutput: string,
                    context: Option<seq<TaskSpec>>)
    returns (task: TaskSpec)
    ensures task.agent == agent && task.expectedOutput == expectedOutput && task.context == context
    ensures StartsWith(task.description, descriptionContent)
    ensures task.description == descriptionContent <==> agentType !in CatalogConfig
    ensures agentType in CatalogConfig ==>
      task.description == descriptionContent + "\n\n" + RestrictionText(CatalogConfig[agentType])
  {
    var restrictions := GenerateFileAccessRestrictions(agentType);
    task := TaskSpec(Compose(descriptionContent, restrictions), agent, expectedOutput, context);
  }
}

=== FILE: console.dfy ===
/**
 The console log handler used on Windows: before a log message is written to
 the console, seventeen Vietnamese letters are replaced by plain ASCII letters,
 one `str.replace` after another. Messages are otherwise written unchanged.
 */
module Console {

  /** `s.replace(from, to)` for a one-character `from` and `to`. */
  function Replace(s: string, from: char, to: char): (r: string)
    ensures |r| == |s|
    ensures forall i :: 0 <= i < |s| ==> r[i] == if s[i] == from then to else s[i]
  {
    if s == [] then [] else [if s[0] == from then to else s[0]] + Replace(s[1..], from, to)
  }

  /** The handler's replacement chain, one `str.replace` after another, in source order. */
  function ReplaceChain(msg: string): (r: string)
    ensures |r| == |msg|
  {
    var m1 := Replace(Replace(msg, 'Đ', 'D'), 'đ', 'd');
    var m2 := Replace(Replace(Replace(m1, 'ă', 'a'), 'â', 'a'), 'ê', 'e');
    var m3 := Replace(Replace(Replace(m2, 'ô', 'o'), 'ơ', 'o'), 'ư', 'u');
    var m4 := Replace(Replace(Replace(m3, 'ế', 'e'), 'ề', 'e'), 'ể', 'e');
    var m5 := Replace(Replace(Replace(m4, 'ố', 'o'), 'ồ', 'o'), 'ổ', 'o');
    Replace(Replace(Replace(m5, 'ứ', 'u'), 'ừ', 'u'), 'ử', 'u')
  }

  /** The message as the handler writes it: the replacement chain, which maps each
      character on its own to its ASCII stand-in. */
  function Scrub(msg: string): (r: string)
    ensures |r| == |msg|
    ensures forall i :: 0 <= i < |msg| ==> r[i] == AsciiFold(msg[i])
  {
    ChainIsFoldEverywhere(msg);
    ReplaceChain(msg)
  }

  /** One replacement applied to one character. */
  function Swap(c: char, from: char, to: char): char {
    if c == from then to else c
  }

  /** The chain applied to one character, replacement by replacement. */
  function ChainChar(c: char): char {
    var c1 := Swap(Swap(c, 'Đ', 'D'), 'đ', 'd');
    var c2 := Swap(Swap(Swap(c1, 'ă', 'a'), 'â', 'a'), 'ê', 'e');
    var c3 := Swap(Swap(Swap(c2, 'ô', 'o'), 'ơ', 'o'), 'ư', 'u');
    var c4 := Swap(Swap(Swap(c3, 'ế', 'e'), 'ề', 'e'), 'ể', 'e');
    var c5 := Swap(Swap(Swap(c4, 'ố', 'o'), 'ồ', 'o'), 'ổ', 'o');
    Swap(Swap(Swap(c5, 'ứ', 'u'), 'ừ', 'u'), 'ử', 'u')
  }

  /** The chain works on each position separately. */
  lemma ChainAt(msg: string, i: nat)
    requires i < |msg|
    ensures ReplaceChain(msg)[i] == ChainChar(msg[i])
  {
    var m1 := Replace(Replace(msg, 'Đ', 'D'), 'đ', 'd');
    var m2 := Replace(Replace(Replace(m1, 'ă', 'a'), 'â', 'a'), 'ê', 'e');
    var m3 := Replace(Replace(Replace(m2, 'ô', 'o'), 'ơ', 'o'), 'ư', 'u');
    var m4 := Replace(Replace(Replace(m3, 'ế', 'e'), 'ề', 'e'), 'ể', 'e');
    var m5 := Replace(Replace(Replace(m4, 'ố', 'o'), 'ồ', 'o'), 'ổ', 'o');
    var c := msg[i];
    assert m1[i] == Swap(Swap(c, 'Đ', 'D'), 'đ', 'd');
    assert m2[i] == Swap(Swap(Swap(m1[i], 'ă', 'a'), 'â', 'a'), 'ê', 'e');
    assert m3[i] == Swap(Swap(Swap(m2[i], 'ô', 'o'), 'ơ', 'o'), 'ư', 'u');
    assert m4[i] == Swap(Swap(Swap(m3[i], 'ế', 'e'), 'ề', 'e'), 'ể', 'e');
    assert m5[i] == Swap(Swap(Swap(m4[i], 'ố', 'o'), 'ồ', 'o'), 'ổ', 'o');
  }

  /** The chain never feeds a replaced letter into a later replacement, so it maps
      each character straight to its ASCII stand-in. */
  lemma ChainIsFold(c: char)
    ensures ChainChar(c) == AsciiFold(c)
  {
  }

  /** The handler's chain of replacements is the per-letter folding, position by position. */
  lemma ChainIsFoldEverywhere(msg: string)
    ensures forall i :: 0 <= i < |msg| ==> ReplaceChain(msg)[i] == AsciiFold(msg[i])
  {
    forall i | 0 <= i < |msg|
      ensures ReplaceChain(msg)[i] == AsciiFold(msg[i])
    {
      ChainAt(msg, i);
      ChainIsFold(msg[i]);
    }
  }

  /** The letters the handler replaces. */
  const Listed: set<char> := {
    'Đ', 'đ', 'ă', 'â', 'ê', 'ô', 'ơ', 'ư', 'ế', 'ề', 'ể', 'ố', 'ồ', 'ổ', 'ứ', 'ừ', 'ử'
  }

  /** The ASCII letter each listed letter stands for, grouped by that letter; every
      other character stands for itself. */
  function AsciiFold(c: char): (a: char)
    ensures c in Listed <==> a != c
    ensures a !in Listed
  {
    if c == 'Đ' then 'D'
    else if c == 'đ' then 'd'
    else if c in {'ă', 'â'} then 'a'
    else if c in {'ê', 'ế', 'ề', 'ể'} then 'e'
    else if c in {'ô', 'ơ', 'ố', 'ồ', 'ổ'} then 'o'
    else if c in {'ư', 'ứ', 'ừ', 'ử'} then 'u'
    else c
  }

  /** Each listed letter becomes a plain ASCII letter. */
  lemma ListedBecomeAscii(msg: string)
    ensures forall i :: 0 <= i < |msg| && msg[i] in Listed ==> Scrub(msg)[i] in "Ddaeou"
  {
  }

  /** No listed letter survives, and every other character is kept in its place. */
  lemma ScrubRemovesListed(msg: string)
    ensures forall i :: 0 <= i < |msg| ==> Scrub(msg)[i] !in Listed
    ensures forall i :: 0 <= i < |msg| && msg[i] !in Listed ==> Scrub(msg)[i] == msg[i]
  {
  }

  /** A message without listed letters is written as it is. */
  lemma ScrubKeepsUnlisted(msg: string)
    requires forall i :: 0 <= i < |msg| ==> msg[i] !in Listed
    ensures Scrub(msg) == msg
  {
  }

  /** Scrubbing twice is scrubbing once. */
  lemma ScrubIdempotent(msg: string)
    ensures Scrub(Scrub(msg)) == Scrub(msg)
  {
    ScrubRemovesListed(msg);
    ScrubKeepsUnlisted(Scrub(msg));
  }

  /** Each character is replaced on its own, so a message can be scrubbed in pieces. */
  lemma ScrubConcat(a: string, b: string)
    ensures Scrub(a + b) == Scrub(a) + Scrub(b)
  {
    var whole := Scrub(a + b);
    var parts := Scrub(a) + Scrub(b);
    forall i | 0 <= i < |whole|
      ensures whole[i] == parts[i]
    {
      if i < |a| {
        assert (a + b)[i] == a[i];
        assert parts[i] == Scrub(a)[i] == AsciiFold(a[i]);
      } else {
        assert (a + b)[i] == b[i - |a|];
        assert parts[i] == Scrub(b)[i - |a|] == AsciiFold(b[i - |a|]);
      }
    }
  }

  /** Letters with other tone marks, and capitals other than `Đ`, are not replaced:
      `ệ`, `ạ` and `Ư` reach the console as they are. */
  lemma OtherMarksKept()
    ensures forall c :: c in "ệạƯ" ==> Scrub([c]) == [c]
  {
    forall c | c in "ệạƯ"
      ensures Scrub([c]) == [c]
    {
      ScrubKeepsUnlisted([c]);
    }
  }
}

=== FILE: drawing_specs.dfy ===
/**
 The line parser that pulls header fields, keyed sections and notes out of the
 text of a technical drawing (extract_technical_specs). One pass over the lines
 keeps the current section as its only state; every line is stripped, then
 classified in a fixed order: skipped, a header field, a section heading, a
 bullet of the current section, or nothing.
 */
module DrawingSpecs {
  import opened Wrappers
  import opened Strings
  import opened OrderedDict

  /** The sections a heading line can open. Bullets under `Approval` are dropped. */
  datatype Section = Dimensions | SurfaceFinish | Tolerances | HeatTreatment | Notes | Approval

  /** The four sections whose bullets are stored as keyed entries. */
  predicate Keyed(s: Section) {
    s.Dimensions? || s.SurfaceFinish? || s.Tolerances? || s.HeatTreatment?
  }

  /** The exact text of the heading line of each section. */
  function HeadingText(s: Section): string {
    match s
    case Dimensions => "DIMENSIONS:"
    case SurfaceFinish => "SURFACE FINISH:"
    case Tolerances => "TOLERANCES:"
    case HeatTreatment => "HEAT TREATMENT:"
    case Notes => "NOTES:"
    case Approval => "APPROVAL:"
  }

  /** The four header fields, in the order in which a line is searched for them. */
  datatype HeaderField = PartName | PartNumber | Revision | Material

  /** The marker that introduces each header field. */
  function Marker(f: HeaderField): string {
    match f
    case PartName => "PART NAME:"
    case PartNumber => "PART NUMBER:"
    case Revision => "REVISION:"
    case Material => "MATERIAL:"
  }

  /** The position of a field in the test order. */
  function Rank(f: HeaderField): nat {
    match f
    case PartName => 0
    case PartNumber => 1
    case Revision => 2
    case Material => 3
  }

  /** A value of a keyed section: a string, or the list kept under the key `items`
      for bullets that carry no key. */
  datatype Entry = Value(text: string) | Items(list: seq<string>)

  /** The result record. Its nine keys are the nine fields; each starts empty. */
  datatype Specs = Specs(
    name: string,
    partNumber: string,
    revision: string,
    material: string,
    dimensions: Dict<Entry>,
    surfaceFinish: Dict<Entry>,
    tolerances: Dict<Entry>,
    heatTreatment: Dict<Entry>,
    notes: seq<string>)

  const EmptySpecs: Specs := Specs("", "", "", "", [], [], [], [], [])

  /** The parser state: the record so far and the current section, if any. */
  datatype State = State(specs: Specs, section: Option<Section>)

  const Start: State := State(EmptySpecs, None)

  /** What the source raises: appending a keyless bullet to an `items` key that a
      keyed bullet has already set to a string. */
  datatype ParseError = ItemsNotAList(section: Section)

  function HeaderValue(s: Specs, f: HeaderField): string {
    match f
    case PartName => s.name
    case PartNumber => s.partNumber
    case Revision => s.revision
    case Material => s.material
  }

  function WithHeader(s: Specs, f: HeaderField, v: string): (r: Specs)
    ensures HeaderValue(r, f) == v
    ensures forall g :: g != f ==> HeaderValue(r, g) == HeaderValue(s, g)
    ensures r.dimensions == s.dimensions && r.surfaceFinish == s.surfaceFinish
    ensures r.tolerances == s.tolerances && r.heatTreatment == s.heatTreatment && r.notes == s.notes
  {
    match f
    case PartName => s.(name := v)
    case PartNumber => s.(partNumber := v)
    case Revision => s.(revision := v)
    case Material => s.(material := v)
  }

  function SectionDict(s: Specs, sec: Section): Dict<Entry>
    requires Keyed(sec)
  {
    match sec
    case Dimensions => s.dimensions
    case SurfaceFinish => s.surfaceFinish
    case Tolerances => s.tolerances
    case HeatTreatment => s.heatTreatment
  }

  function WithSectionDict(s: Specs, sec: Section, d: Dict<Entry>): (r: Specs)
    requires Keyed(sec)
    ensures SectionDict(r, sec) == d
    ensures forall o :: Keyed(o) && o != sec ==> SectionDict(r, o) == SectionDict(s, o)
    ensures forall f :: HeaderValue(r, f) == HeaderValue(s, f)
    ensures r.notes == s.notes
  {
    match sec
    case Dimensions => s.(dimensions := d)
    case SurfaceFinish => s.(surfaceFinish := d)
    case Tolerances => s.(tolerances := d)
    case HeatTreatment => s.(heatTreatment := d)
  }

  /** `line.split(marker)[1]`: the text between the first and the second occurrence
      of the marker, or up to the end of the line when there is no second one. */
  function SecondPart(line: string, marker: string): (seg: string)
    requires |marker| > 0 && Contains(line, marker)
    ensures var a := Find(line, marker).value + |marker|;
      && a + |seg| <= |line|
      && line[a..a + |seg|] == seg
      && (forall j :: a <= j < a + |seg| ==> !OccursAt(line, marker, j))
      && (a + |seg| == |line| || OccursAt(line, marker, a + |seg|))
  {
    var a := Find(line, marker).value + |marker|;
    match FindFrom(line, marker, a)
    case None => line[a..]
    case Some(b) => line[a..b]
  }

  /** The value of a header field: the second part of the line, stripped. */
  function FieldAfter(line: string, f: HeaderField): string
    requires Contains(line, Marker(f))
  {
    Strip(SecondPart(line, Marker(f)))
  }

  /** The first header field, in test order, whose marker occurs in the line. */
  function FirstHeader(line: string): (r: Option<HeaderField>)
    ensures r.Some? ==> Contains(line, Marker(r.value))
    ensures forall g :: (r.None? || Rank(g) < Rank(r.value)) ==> !Contains(line, Marker(g))
  {
    if Contains(line, Marker(PartName)) then Some(PartName)
    else if Contains(line, Marker(PartNumber)) then Some(PartNumber)
    else if Contains(line, Marker(Revision)) then Some(Revision)
    else if Contains(line, Marker(Material)) then Some(Material)
    else None
  }

  /** The section a line opens, when it is exactly a heading. */
  function HeadingOf(line: string): (r: Option<Section>)
    ensures r.Some? ==> line == HeadingText(r.value)
    ensures forall s :: line == HeadingText(s) ==> r == Some(s)
  {
    if line == "DIMENSIONS:" then Some(Dimensions)
    else if line == "SURFACE FINISH:" then Some(SurfaceFinish)
    else if line == "TOLERANCES:" then Some(Tolerances)
    else if line == "HEAT TREATMENT:" then Some(HeatTreatment)
    else if line == "NOTES:" then Some(Notes)
    else if line == "APPROVAL:" then Some(Approval)
    else None
  }

  /** No heading contains a header marker, so header tests never capture a heading. */
  lemma HeadingsUnmarked()
    ensures forall s, f :: !Contains(HeadingText(s), Marker(f))
  {
    forall s, f
      ensures !Contains(HeadingText(s), Marker(f))
    {
      match s
      case Dimensions => DimensionsUnmarked(f);
      case SurfaceFinish => SurfaceFinishUnmarked(f);
      case Tolerances => TolerancesUnmarked(f);
      case HeatTreatment => HeatTreatmentUnmarked(f);
      case Notes => NotesUnmarked(f);
      case Approval => ApprovalUnmarked(f);
    }
  }

  // For each heading, a character of each marker that the heading lacks.
  lemma DimensionsUnmarked(f: HeaderField) ensures !Contains("DIMENSIONS:", Marker(f)) {
    match f
    case PartName => AbsentChar("DIMENSIONS:", "PART NAME:", 'P');
    case PartNumber => AbsentChar("DIMENSIONS:", "PART NUMBER:", 'P');
    case Revision => AbsentChar("DIMENSIONS:", "REVISION:", 'V');
    case Material => AbsentChar("DIMENSIONS:", "MATERIAL:", 'A');
  }
  lemma SurfaceFinishUnmarked(f: HeaderField) ensures !Contains("SURFACE FINISH:", Marker(f)) {
    match f
    case PartName => AbsentChar("SURFACE FINISH:", "PART NAME:", 'P');
    case PartNumber => AbsentChar("SURFACE FINISH:", "PART NUMBER:", 'P');
    case Revision => AbsentChar("SURFACE FINISH:", "REVISION:", 'V');
    case Material => AbsentChar("SURFACE FINISH:", "MATERIAL:", 'M');
  }
  lemma TolerancesUnmarked(f: HeaderField) ensures !Contains("TOLERANCES:", Marker(f)) {
    match f
    case PartName => AbsentChar("TOLERANCES:", "PART NAME:", 'P');
    case PartNumber => AbsentChar("TOLERANCES:", "PART NUMBER:", 'P');
    case Revision => AbsentChar("TOLERANCES:", "REVISION:", 'V');
    case Material => AbsentChar("TOLERANCES:", "MATERIAL:", 'M');
  }
  lemma HeatTreatmentUnmarked(f: HeaderField) ensures !Contains("HEAT TREATMENT:", Marker(f)) {
    match f
    case PartName => AbsentChar("HEAT TREATMENT:", "PART NAME:", 'P');
    case PartNumber => AbsentChar("HEAT TREATMENT:", "PART NUMBER:", 'P');
    case Revision => AbsentChar("HEAT TREATMENT:", "REVISION:", 'V');
    case Material => AbsentChar("HEAT TREATMENT:", "MATERIAL:", 'I');
  }
  lemma NotesUnmarked(f: HeaderField) ensures !Contains("NOTES:", Marker(f)) {
    match f
    case PartName => AbsentChar("NOTES:", "PART NAME:", 'P');
    case PartNumber => AbsentChar("NOTES:", "PART NUMBER:", 'P');
    case Revision => AbsentChar("NOTES:", "REVISION:", 'V');
    case Material => AbsentChar("NOTES:", "MATERIAL:", 'M');
  }
  lemma ApprovalUnmarked(f: HeaderField) ensures !Contains("APPROVAL:", Marker(f)) {
    match f
    case PartName => AbsentChar("APPROVAL:", "PART NAME:", 'T');
    case PartNumber => AbsentChar("APPROVAL:", "PART NUMBER:", 'T');
    case Revision => AbsentChar("APPROVAL:", "REVISION:", 'E');
    case Material => AbsentChar("APPROVAL:", "MATERIAL:", 'M');
  }

  /** How a line is read, before the current section is consulted. */
  datatype LineKind = Skip | Header(field: HeaderField, value: string) | Heading(section: Section) | Bullet(item: string) | Plain

  /** Blank lines and lines that start with `==` once stripped are skipped. */
  predicate IsSkip(line: string) {
    line == "" || StartsWith(line, "==")
  }

  /** The reading of one raw line, in the source's order of tests: skipped, then the
      header fields in test order, then the exact headings, then `- ` bullets. */
  function Classify(raw: string): (k: LineKind)
    ensures k.Skip? <==> IsSkip(Strip(raw))
    ensures k.Header? <==> !IsSkip(Strip(raw)) && FirstHeader(Strip(raw)).Some?
    ensures k.Header? ==> FirstHeader(Strip(raw)) == Some(k.field) && k.value == FieldAfter(Strip(raw), k.field)
    ensures k.Heading? <==> !IsSkip(Strip(raw)) && FirstHeader(Strip(raw)).None? && HeadingOf(Strip(raw)).Some?
    ensures k.Heading? ==> Strip(raw) == HeadingText(k.section)
    ensures k.Bullet? <==>
      && !IsSkip(Strip(raw)) && FirstHeader(Strip(raw)).None? && HeadingOf(Strip(raw)).None?
      && StartsWith(Strip(raw), "- ")
    ensures k.Bullet? ==> k.item == Strip(Strip(raw)[2..])
    ensures k.Plain? <==>
      && !IsSkip(Strip(raw)) && FirstHeader(Strip(raw)).None? && HeadingOf(Strip(raw)).None?
      && !StartsWith(Strip(raw), "- ")
  {
    var line := Strip(raw);
    if IsSkip(line) then Skip
    else match FirstHeader(line)
      case Some(f) => Header(f, FieldAfter(line, f))
      case None =>
        match HeadingOf(line)
        case Some(s) => Heading(s)
        case None => if StartsWith(line, "- ") then Bullet(Strip(line[2..])) else Plain
  }

  /** A line that is exactly a heading once stripped always opens its section. */
  lemma HeadingLine(raw: string)
    ensures HeadingOf(Strip(raw)).Some? ==> Classify(raw) == Heading(HeadingOf(Strip(raw)).value)
  {
    var line := Strip(raw);
    if HeadingOf(line).Some? {
      var s := HeadingOf(line).value;
      HeadingIsPlain(s);
      assert line == HeadingText(s);
    }
  }

  /** A heading is neither skipped nor read as a header line. */
  lemma HeadingIsPlain(s: Section)
    ensures !IsSkip(HeadingText(s)) && FirstHeader(HeadingText(s)).None?
  {
    HeadingsUnmarked();
    assert HeadingText(s)[0] != '=';
  }

  /** The reading of every line. */
  function Lex(lines: seq<string>): (kinds: seq<LineKind>)
    ensures |kinds| == |lines|
  {
    seq(|lines|, i requires 0 <= i < |lines| => Classify(lines[i]))
  }

  /** The key under which the source collects bullets that carry no key. */
  const ItemsKey: string := "items"

  /** The key of a bullet that carries one: the text before its first `:`, stripped. */
  function KeyOf(item: string): (key: string)
    requires ':' in item
    ensures ':' !in key
    ensures key == [] || (!IsSpace(key[0]) && !IsSpace(key[|key| - 1]))
  {
    var before := item[..IndexOfChar(item, ':')];
    StripInside(before);
    Strip(before)
  }

  /** The value of a bullet that carries a key: the text after its first `:`, stripped. */
  function ValueOf(item: string): (value: string)
    requires ':' in item
    ensures |value| < |item|
    ensures value == [] || (!IsSpace(value[0]) && !IsSpace(value[|value| - 1]))
  {
    Strip(item[IndexOfChar(item, ':') + 1..])
  }

  /** `item.split(":", 1)`: the item splits at its first `:`; the key is the stripped
      text before it and the value the stripped text after it, colons included. */
  lemma KeyValueAtFirstColon(item: string)
    requires ':' in item
    ensures exists j ::
      && 0 <= j < |item| && item[j] == ':' && ':' !in item[..j]
      && KeyOf(item) == Strip(item[..j]) && ValueOf(item) == Strip(item[j + 1..])
  {
    var j := IndexOfChar(item, ':');
    assert KeyOf(item) == Strip(item[..j]);
    assert ValueOf(item) == Strip(item[j + 1..]);
  }

  /** The list under `items`, or the empty list when there is none. */
  function ItemsOf(d: Dict<Entry>): seq<string> {
    var cur := Get(d, ItemsKey);
    if cur.Some? && cur.value.Items? then cur.value.list else []
  }

  /** `items` is absent or holds a list, so a keyless bullet can be appended. */
  predicate ItemsIsList(d: Dict<Entry>) {
    var cur := Get(d, ItemsKey);
    cur.None? || cur.value.Items?
  }

  /** A bullet of a keyed section: split at the first `:` into a stripped key and
      value; without a `:`, appended to the list under `items`, created empty when
      absent. The append fails (None) when `items` holds a string. */
  function AddToDict(d: Dict<Entry>, item: string): (r: Option<Dict<Entry>>)
    ensures r.None? <==> ':' !in item && !ItemsIsList(d)
    ensures r.Some? && ':' in item ==>
      && Get(r.value, KeyOf(item)) == Some(Value(ValueOf(item)))
      && (forall k :: k != KeyOf(item) ==> Get(r.value, k) == Get(d, k))
    ensures r.Some? && ':' !in item ==>
      && Get(r.value, ItemsKey) == Some(Items(ItemsOf(d) + [item]))
      && (forall k :: k != ItemsKey ==> Get(r.value, k) == Get(d, k))
  {
    if ':' in item then
      SetGetSame(d, KeyOf(item), Value(ValueOf(item)));
      SetGetOthers(d, KeyOf(item), Value(ValueOf(item)));
      Some(Set(d, KeyOf(item), Value(ValueOf(item))))
    else
      var d' := if ItemsKey in Keys(d) then d else Set(d, ItemsKey, Items([]));
      SetGetSame(d, ItemsKey, Items([]));
      SetGetOthers(d, ItemsKey, Items([]));
      var cur := Get(d', ItemsKey);
      if cur.Some? && cur.value.Items? then
        SetGetSame(d', ItemsKey, Items(cur.value.list + [item]));
        SetGetOthers(d', ItemsKey, Items(cur.value.list + [item]));
        Some(Set(d', ItemsKey, Items(cur.value.list + [item])))
      else None
  }

  /** A bullet of the current section: appended to the notes, dropped under
      `APPROVAL:`, or added to the section's entries. */
  function AddItem(specs: Specs, sec: Section, item: string): (r: Result<Specs, ParseError>)
    ensures r.Failure? <==> Keyed(sec) && ':' !in item && !ItemsIsList(SectionDict(specs, sec))
    ensures r.Success? ==> r.value.notes == if sec == Notes then specs.notes + [item] else specs.notes
    ensures r.Success? ==> forall f :: HeaderValue(r.value, f) == HeaderValue(specs, f)
    ensures r.Success? ==> forall o :: Keyed(o) && o != sec ==> SectionDict(r.value, o) == SectionDict(specs, o)
  {
    if sec == Notes then Success(specs.(notes := specs.notes + [item]))
    else if sec == Approval then Success(specs)
    else match AddToDict(SectionDict(specs, sec), item)
      case Some(d) => Success(WithSectionDict(specs, sec, d))
      case None => Failure(ItemsNotAList(sec))
  }

  /** One iteration of the loop, given the reading of the line. A bullet with no
      current section is ignored, as is a plain line. */
  function Apply(st: State, k: LineKind): (r: Result<State, ParseError>)
    ensures r.Success? ==> (forall f ::
      HeaderValue(r.value.specs, f) == if k.Header? && k.field == f then k.value else HeaderValue(st.specs, f))
    ensures r.Success? ==> r.value.section == if k.Heading? then Some(k.section) else st.section
    ensures r.Success? ==> st.specs.notes <= r.value.specs.notes
    ensures r.Success? && !k.Bullet? ==>
      && r.value.specs.notes == st.specs.notes
      && forall sec :: Keyed(sec) ==> SectionDict(r.value.specs, sec) == SectionDict(st.specs, sec)
    ensures r.Failure? <==>
      && k.Bullet? && ':' !in k.item
      && st.section.Some? && Keyed(st.section.value)
      && !ItemsIsList(SectionDict(st.specs, st.section.value))
  {
    match k
    case Skip => Success(st)
    case Header(f, v) => Success(st.(specs := WithHeader(st.specs, f, v)))
    case Heading(s) => Success(st.(section := Some(s)))
    case Bullet(item) => ApplyBullet(st, item)
    case Plain => Success(st)
  }

  /** A bullet line: ignored with no current section, else added to that section. */
  function ApplyBullet(st: State, item: string): (r: Result<State, ParseError>)
    ensures st.section.None? ==> r == Success(st)
    ensures r.Success? ==> r.value.section == st.section
    ensures r.Success? ==> forall f :: HeaderValue(r.value.specs, f) == HeaderValue(st.specs, f)
    ensures r.Success? ==> st.specs.notes <= r.value.specs.notes
    ensures r.Failure? <==>
      && ':' !in item && st.section.Some? && Keyed(st.section.value)
      && !ItemsIsList(SectionDict(st.specs, st.section.value))
  {
    if st.section.None? then Success(st)
    else match AddItem(st.specs, st.section.value, item)
      case Success(specs) => Success(st.(specs := specs))
      case Failure(e) => Failure(e)
  }

  /** The loop over read lines: stops at the first line that raises. Notes are only
      ever appended to. */
  function Run(st: State, kinds: seq<LineKind>): (r: Result<State, ParseError>)
    ensures r.Success? ==> st.specs.notes <= r.value.specs.notes
    decreases |kinds|
  {
    if kinds == [] then Success(st)
    else match Apply(st, kinds[0])
      case Failure(e) => Failure(e)
      case Success(next) => Run(next, kinds[1..])
  }

  /** The value of header field `f` from the last line that sets it, if any. */
  function LastHeader(kinds: seq<LineKind>, f: HeaderField): Option<string>
  {
    if kinds == [] then None
    else
      var later := LastHeader(kinds[1..], f);
      if later.Some? then later
      else if kinds[0].Header? && kinds[0].field == f then Some(kinds[0].value)
      else None
  }

  /** The section of the last heading line, if any. */
  function LastHeading(kinds: seq<LineKind>): Option<Section>
  {
    if kinds == [] then None
    else
      var later := LastHeading(kinds[1..]);
      if later.Some? then later
      else if kinds[0].Heading? then Some(kinds[0].section)
      else None
  }

  /** Each header field ends up with the value of the last line that sets it; a
      field that no line sets keeps its value (the empty string at the start). */
  lemma {:induction false} HeaderLastWins(st: State, kinds: seq<LineKind>, f: HeaderField)
    requires Run(st, kinds).Success?
    ensures HeaderValue(Run(st, kinds).value.specs, f) ==
      match LastHeader(kinds, f)
      case Some(v) => v
      case None => HeaderValue(st.specs, f)
    decreases |kinds|
  {
    if kinds != [] {
      HeaderLastWins(Apply(st, kinds[0]).value, kinds[1..], f);
    }
  }

  /** The current section at the end is that of the last heading line; without
      heading lines it is unchanged. */
  lemma {:induction false} SectionFollowsHeadings(st: State, kinds: seq<LineKind>)
    requires Run(st, kinds).Success?
    ensures Run(st, kinds).value.section ==
      if LastHeading(kinds).Some? then LastHeading(kinds) else st.section
    decreases |kinds|
  {
    if kinds != [] {
      SectionFollowsHeadings(Apply(st, kinds[0]).value, kinds[1..]);
    }
  }

  /** The section current after reading `k`, when `cur` was current before. */
  function NextSection(cur: Option<Section>, k: LineKind): Option<Section> {
    if k.Heading? then Some(k.section) else cur
  }

  /** The items of the bullets read while NOTES is current, in order, when `cur` is
      current before the first line. */
  function NotesRead(cur: Option<Section>, kinds: seq<LineKind>): seq<string>
    decreases |kinds|
  {
    if kinds == [] then []
    else
      (if cur == Some(Notes) && kinds[0].Bullet? then [kinds[0].item] else [])
      + NotesRead(NextSection(cur, kinds[0]), kinds[1..])
  }

  /** One line adds to the notes only when it is a bullet read under NOTES. */
  lemma ApplyNotes(st: State, k: LineKind)
    requires Apply(st, k).Success?
    ensures Apply(st, k).value.specs.notes ==
      st.specs.notes + if st.section == Some(Notes) && k.Bullet? then [k.item] else []
  {
  }

  /** The notes at the end are those at the start followed by the item of every
      bullet read while NOTES was current, in input order, whatever other lines come
      in between. */
  lemma {:induction false} NotesCollected(st: State, kinds: seq<LineKind>)
    requires Run(st, kinds).Success?
    ensures Run(st, kinds).value.specs.notes == st.specs.notes + NotesRead(st.section, kinds)
    decreases |kinds|
  {
    if kinds != [] {
      var next := Apply(st, kinds[0]).value;
      ApplyNotes(st, kinds[0]);
      assert next.section == NextSection(st.section, kinds[0]);
      NotesCollected(next, kinds[1..]);
    }
  }

  /** The value the last keyed bullet with key `key` gave while section `sec` was
      current, if any, when `cur` is current before the first line. */
  function LastKeyedValue(cur: Option<Section>, kinds: seq<LineKind>, sec: Section, key: string): Option<string>
    decreases |kinds|
  {
    if kinds == [] then None
    else
      var k := kinds[0];
      var later := LastKeyedValue(NextSection(cur, k), kinds[1..], sec, key);
      if later.Some? then later
      else if cur == Some(sec) && k.Bullet? && ':' in k.item && KeyOf(k.item) == key then Some(ValueOf(k.item))
      else None
  }

  /** One line changes the value under a key other than `items` of a keyed section
      only when it is a bullet with that key read while the section is current. */
  lemma ApplyKeyLookup(st: State, k: LineKind, sec: Section, key: string)
    requires Keyed(sec) && key != ItemsKey
    requires Apply(st, k).Success?
    ensures Get(SectionDict(Apply(st, k).value.specs, sec), key) ==
      if st.section == Some(sec) && k.Bullet? && ':' in k.item && KeyOf(k.item) == key
      then Some(Value(ValueOf(k.item)))
      else Get(SectionDict(st.specs, sec), key)
  {
    if k.Bullet? {
      if st.section == Some(sec) {
        BulletKeyLookup(st, k.item, sec, key);
      } else {
        OtherSectionBullet(st, k.item, sec);
      }
    }
  }

  /** The bullet case of the lemma above, under the section itself. */
  lemma BulletKeyLookup(st: State, item: string, sec: Section, key: string)
    requires Keyed(sec) && key != ItemsKey && st.section == Some(sec)
    requires Apply(st, Bullet(item)).Success?
    ensures Get(SectionDict(Apply(st, Bullet(item)).value.specs, sec), key) ==
      if ':' in item && KeyOf(item) == key then Some(Value(ValueOf(item)))
      else Get(SectionDict(st.specs, sec), key)
  {
    var d0 := SectionDict(st.specs, sec);
    assert AddToDict(d0, item).Some?;
    var d := AddToDict(d0, item).value;
    ApplyBulletInKeyed(st, item);
    assert SectionDict(Apply(st, Bullet(item)).value.specs, sec) == d;
    if ':' in item && KeyOf(item) == key {
      assert Get(d, key) == Some(Value(ValueOf(item)));
    } else {
      assert Get(d, key) == Get(d0, key);
    }
  }

  /** A bullet read while another section is current leaves a keyed section alone. */
  lemma OtherSectionBullet(st: State, item: string, sec: Section)
    requires Keyed(sec) && st.section != Some(sec)
    requires Apply(st, Bullet(item)).Success?
    ensures SectionDict(Apply(st, Bullet(item)).value.specs, sec) == SectionDict(st.specs, sec)
  {
    if st.section.Some? {
      var specs := AddItem(st.specs, st.section.value, item).value;
      assert Apply(st, Bullet(item)).value.specs == specs;
    }
  }

  /** In a keyed section, every key other than `items` ends up with the value of the
      last bullet carrying that key read while the section was current, whatever
      other lines come in between; a key no such bullet sets keeps its value. */
  lemma {:induction false} KeyedRunLastWins(st: State, kinds: seq<LineKind>, sec: Section, key: string)
    requires Keyed(sec) && key != ItemsKey
    requires Run(st, kinds).Success?
    ensures Get(SectionDict(Run(st, kinds).value.specs, sec), key) ==
      match LastKeyedValue(st.section, kinds, sec, key)
      case Some(v) => Some(Value(v))
      case None => Get(SectionDict(st.specs, sec), key)
    decreases |kinds|
  {
    if kinds != [] {
      var next := Apply(st, kinds[0]).value;
      ApplyKeyLookup(st, kinds[0], sec, key);
      assert next.section == NextSection(st.section, kinds[0]);
      KeyedRunLastWins(next, kinds[1..], sec, key);
    }
  }

  /** Inserting a skipped line (blank, or a `==` rule) anywhere changes nothing. */
  lemma {:induction false} SkipLinesIgnored(st: State, a: seq<LineKind>, b: seq<LineKind>)
    ensures Run(st, a + [Skip] + b) == Run(st, a + b)
    decreases |a|
  {
    if a == [] {
      assert a + [Skip] + b == [Skip] + b;
      assert ([Skip] + b)[1..] == b;
      assert a + b == b;
    } else {
      assert (a + [Skip] + b)[0] == a[0];
      assert (a + [Skip] + b)[1..] == a[1..] + [Skip] + b;
      assert (a + b)[0] == a[0];
      assert (a + b)[1..] == a[1..] + b;
      match Apply(st, a[0])
      case Failure(e) =>
      case Success(next) => SkipLinesIgnored(next, a[1..], b);
    }
  }

  /** The bullet lines carrying the given items, in order. */
  function Bullets(items: seq<string>): (kinds: seq<LineKind>)
    ensures |kinds| == |items|
    ensures forall i :: 0 <= i < |items| ==> kinds[i] == Bullet(items[i])
  {
    seq(|items|, i requires 0 <= i < |items| => Bullet(items[i]))
  }

  /** A bullet under `NOTES:` appends its item and keeps the section. */
  lemma ApplyNote(st: State, item: string)
    requires st.section == Some(Notes)
    ensures Apply(st, Bullet(item)) == Success(st.(specs := st.specs.(notes := st.specs.notes + [item])))
  {
    assert AddItem(st.specs, Notes, item) == Success(st.specs.(notes := st.specs.notes + [item]));
  }

  /** Under `NOTES:`, bullet lines are collected in input order, and nothing else
      changes: not the section, not the headers, not the other sections. */
  lemma {:induction false} NotesInOrder(st: State, items: seq<string>)
    requires st.section == Some(Notes)
    ensures Run(st, Bullets(items)) == Success(st.(specs := st.specs.(notes := st.specs.notes + items)))
    decreases |items|
  {
    if items == [] {
      assert st.specs.notes + items == st.specs.notes;
    } else {
      var next := st.(specs := st.specs.(notes := st.specs.notes + [items[0]]));
      assert Bullets(items)[1..] == Bullets(items[1..]);
      assert Run(st, Bullets(items)) == Run(next, Bullets(items[1..])) by {
        ApplyNote(st, items[0]);
      }
      NotesInOrder(next, items[1..]);
      assert next.specs.notes + items[1..] == st.specs.notes + items;
    }
  }

  /** Under `APPROVAL:`, bullet lines are dropped: the state does not change. */
  lemma {:induction false} ApprovalBulletsDropped(st: State, items: seq<string>)
    requires st.section == Some(Approval)
    ensures Run(st, Bullets(items)) == Success(st)
    decreases |items|
  {
    if items != [] {
      assert Bullets(items)[1..] == Bullets(items[1..]);
      assert Apply(st, Bullet(items[0])) == Success(st);
      ApprovalBulletsDropped(st, items[1..]);
    }
  }

  /** Bullets before the first heading are ignored: with no current section, lines
      other than headings touch only the header fields. */
  lemma {:induction false} NoSectionNoItems(st: State, kinds: seq<LineKind>)
    requires st.section.None?
    requires forall i :: 0 <= i < |kinds| ==> !kinds[i].Heading?
    ensures Run(st, kinds).Success?
    ensures var end := Run(st, kinds).value;
      && end.section.None?
      && end.specs.notes == st.specs.notes
      && forall sec :: Keyed(sec) ==> SectionDict(end.specs, sec) == SectionDict(st.specs, sec)
    decreases |kinds|
  {
    if kinds != [] {
      var next := Apply(st, kinds[0]).value;
      assert next.specs == st.specs || kinds[0].Header?;
      NoSectionNoItems(next, kinds[1..]);
    }
  }

  /** A bullet in a keyed section that can be added updates that section alone. */
  lemma ApplyBulletInKeyed(st: State, item: string)
    requires st.section.Some? && Keyed(st.section.value)
    requires AddToDict(SectionDict(st.specs, st.section.value), item).Some?
    ensures Apply(st, Bullet(item)) == Success(st.(specs := WithSectionDict(st.specs, st.section.value,
      AddToDict(SectionDict(st.specs, st.section.value), item).value)))
  {
    var sec := st.section.value;
    var specs := WithSectionDict(st.specs, sec, AddToDict(SectionDict(st.specs, sec), item).value);
    assert sec != Notes && sec != Approval;
    assert AddItem(st.specs, sec, item) == Success(specs);
    assert ApplyBullet(st, item) == Success(st.(specs := specs));
  }

  /** A keyed bullet in a keyed section sets its key to its value. */
  lemma ApplyKeyedBullet(st: State, item: string)
    requires st.section.Some? && Keyed(st.section.value) && ':' in item
    ensures Apply(st, Bullet(item)) == Success(st.(specs := WithSectionDict(st.specs, st.section.value,
      Set(SectionDict(st.specs, st.section.value), KeyOf(item), Value(ValueOf(item))))))
  {
    var d := SectionDict(st.specs, st.section.value);
    assert AddToDict(d, item) == Some(Set(d, KeyOf(item), Value(ValueOf(item))));
    ApplyBulletInKeyed(st, item);
  }

  /** In a keyed section, a keyed bullet followed by another with the same key leaves
      the record as the second alone would: the last write wins. */
  lemma KeyedLastWins(st: State, item1: string, item2: string)
    requires st.section.Some? && Keyed(st.section.value)
    requires ':' in item1 && ':' in item2 && KeyOf(item1) == KeyOf(item2)
    ensures Run(st, [Bullet(item1), Bullet(item2)]) == Run(st, [Bullet(item2)])
  {
    var sec := st.section.value;
    var d := SectionDict(st.specs, sec);
    var k := KeyOf(item1);
    SetSetSameKey(d, k, Value(ValueOf(item1)), Value(ValueOf(item2)));
    var s1 := WithSectionDict(st.specs, sec, Set(d, k, Value(ValueOf(item1))));
    ApplyKeyedBullet(st, item1);
    ApplyKeyedBullet(st.(specs := s1), item2);
    ApplyKeyedBullet(st, item2);
    assert WithSectionDict(s1, sec, Set(Set(d, k, Value(ValueOf(item1))), k, Value(ValueOf(item2))))
        == WithSectionDict(st.specs, sec, Set(d, k, Value(ValueOf(item2))));
    assert [Bullet(item1), Bullet(item2)][1..] == [Bullet(item2)];
  }

  /** A bullet whose key is `items`. */
  predicate ItemsKeyed(k: LineKind) {
    k.Bullet? && ':' in k.item && KeyOf(k.item) == ItemsKey
  }

  /** Every keyed section can take a keyless bullet. */
  predicate SectionsAcceptItems(specs: Specs) {
    forall sec :: Keyed(sec) ==> ItemsIsList(SectionDict(specs, sec))
  }

  /** One line that is not an `items`-keyed bullet keeps every keyed section able to
      take a keyless bullet. */
  lemma ApplyKeepsItemsList(st: State, k: LineKind)
    requires SectionsAcceptItems(st.specs) && !ItemsKeyed(k)
    ensures Apply(st, k).Success?
    ensures SectionsAcceptItems(Apply(st, k).value.specs)
  {
    if k.Bullet? && st.section.Some? && Keyed(st.section.value) {
      KeyedBulletKeepsItemsList(st, k.item);
    } else {
      var next := Apply(st, k).value;
      assert forall sec :: Keyed(sec) ==> SectionDict(next.specs, sec) == SectionDict(st.specs, sec);
    }
  }

  /** The bullet case of the lemma above. */
  lemma KeyedBulletKeepsItemsList(st: State, item: string)
    requires SectionsAcceptItems(st.specs) && !ItemsKeyed(Bullet(item))
    requires st.section.Some? && Keyed(st.section.value)
    ensures Apply(st, Bullet(item)).Success?
    ensures SectionsAcceptItems(Apply(st, Bullet(item)).value.specs)
  {
    var cur := st.section.value;
    var d := SectionDict(st.specs, cur);
    var added := AddToDict(d, item);
    ApplyBulletInKeyed(st, item);
    if ':' in item {
      assert Get(added.value, ItemsKey) == Get(d, ItemsKey);
    }
    assert ItemsIsList(added.value);
  }

  /** The parser only ever raises when some bullet uses the key `items`. */
  lemma {:induction false} NoItemsKeyNoFailure(st: State, kinds: seq<LineKind>)
    requires SectionsAcceptItems(st.specs)
    requires forall i :: 0 <= i < |kinds| ==> !ItemsKeyed(kinds[i])
    ensures Run(st, kinds).Success?
    decreases |kinds|
  {
    if kinds != [] {
      ApplyKeepsItemsList(st, kinds[0]);
      NoItemsKeyNoFailure(Apply(st, kinds[0]).value, kinds[1..]);
    }
  }

  /** A keyed bullet named `items` followed by a keyless bullet in the same section
      raises, whatever came before. */
  lemma ItemsThenKeyless(st: State, value: string, item: string)
    requires st.section.Some? && Keyed(st.section.value)
    requires ':' !in item
    ensures Run(st, [Bullet(ItemsKey + ":" + value), Bullet(item)]) == Failure(ItemsNotAList(st.section.value))
  {
    var keyed := ItemsKey + ":" + value;
    ItemsBulletSetsString(st, value);
    var next := Apply(st, Bullet(keyed)).value;
    assert Run(st, [Bullet(keyed), Bullet(item)]) == Run(next, [Bullet(item)]) by {
      assert [Bullet(keyed), Bullet(item)][1..] == [Bullet(item)];
    }
    assert Apply(next, Bullet(item)) == Failure(ItemsNotAList(st.section.value));
  }

  /** After a bullet `items:<value>` in a keyed section, `items` holds a string. */
  lemma ItemsBulletSetsString(st: State, value: string)
    requires st.section.Some? && Keyed(st.section.value)
    ensures Apply(st, Bullet(ItemsKey + ":" + value)).Success?
    ensures var next := Apply(st, Bullet(ItemsKey + ":" + value)).value;
      next.section == st.section && !ItemsIsList(SectionDict(next.specs, st.section.value))
  {
    var sec := st.section.value;
    var keyed := ItemsKey + ":" + value;
    ItemsKeyOf(value);
    var d := SectionDict(st.specs, sec);
    SetGetSame(d, ItemsKey, Value(ValueOf(keyed)));
    ApplyKeyedBullet(st, keyed);
  }

  /** The bullet text `items:<value>` has the key `items`. */
  lemma ItemsKeyOf(value: string)
    ensures ':' in ItemsKey + ":" + value
    ensures KeyOf(ItemsKey + ":" + value) == ItemsKey
  {
    var keyed := ItemsKey + ":" + value;
    assert keyed[5] == ':';
    assert ':' !in keyed[..5] by {
      assert keyed[..5] == ItemsKey;
    }
    assert IndexOfChar(keyed, ':') == 5;
    assert keyed[..5] == ItemsKey;
    StripUntrimmed(ItemsKey);
  }

  /** From the start, a header field that no line sets stays empty. */
  lemma HeadersFromStart(kinds: seq<LineKind>)
    ensures Run(Start, kinds).Success? ==> (forall f ::
      HeaderValue(Run(Start, kinds).value.specs, f) == match LastHeader(kinds, f) case Some(v) => v case None => "")
  {
    if Run(Start, kinds).Success? {
      forall f
        ensures HeaderValue(Run(Start, kinds).value.specs, f) == match LastHeader(kinds, f) case Some(v) => v case None => ""
      {
        HeaderLastWins(Start, kinds, f);
        assert HeaderValue(Start.specs, f) == "";
      }
    }
  }

  /** A section that is not current and whose heading never occurs keeps what it
      holds: no line adds to it. */
  lemma {:induction false} UnopenedSectionKept(st: State, kinds: seq<LineKind>, sec: Section)
    requires Run(st, kinds).Success?
    requires st.section != Some(sec)
    requires forall i :: 0 <= i < |kinds| ==> kinds[i] != Heading(sec)
    ensures sec == Notes ==> Run(st, kinds).value.specs.notes == st.specs.notes
    ensures Keyed(sec) ==> SectionDict(Run(st, kinds).value.specs, sec) == SectionDict(st.specs, sec)
    decreases |kinds|
  {
    if kinds != [] {
      var next := Apply(st, kinds[0]).value;
      assert next.section != Some(sec);
      UnopenedSectionKept(next, kinds[1..], sec);
    }
  }

  /** From the start, a section whose heading never occurs keeps its default: the
      empty dict for a keyed section, the empty list for the notes. */
  lemma UnopenedSectionEmpty(kinds: seq<LineKind>, sec: Section)
    requires Run(Start, kinds).Success?
    requires forall i :: 0 <= i < |kinds| ==> kinds[i] != Heading(sec)
    ensures sec == Notes ==> Run(Start, kinds).value.specs.notes == []
    ensures Keyed(sec) ==> SectionDict(Run(Start, kinds).value.specs, sec) == []
  {
    UnopenedSectionKept(Start, kinds, sec);
  }

  /** From the start, the notes are the items of the bullets read under NOTES, in
      input order. */
  lemma NotesFromStart(kinds: seq<LineKind>)
    ensures Run(Start, kinds).Success? ==> Run(Start, kinds).value.specs.notes == NotesRead(None, kinds)
  {
    if Run(Start, kinds).Success? {
      NotesCollected(Start, kinds);
    }
  }

  /** From the start, a key other than `items` of a keyed section holds the value of
      the last bullet that set it under that section, and is absent when none did. */
  lemma KeyedFromStart(kinds: seq<LineKind>, sec: Section, key: string)
    requires Keyed(sec) && key != ItemsKey
    ensures Run(Start, kinds).Success? ==>
      Get(SectionDict(Run(Start, kinds).value.specs, sec), key) ==
        match LastKeyedValue(None, kinds, sec, key) case Some(v) => Some(Value(v)) case None => None
  {
    if Run(Start, kinds).Success? {
      KeyedRunLastWins(Start, kinds, sec, key);
      assert SectionDict(Start.specs, sec) == [];
    }
  }

  /** From the start, no error unless a bullet uses the key `items`. */
  lemma NoFailureFromStart(kinds: seq<LineKind>)
    ensures (forall i :: 0 <= i < |kinds| ==> !ItemsKeyed(kinds[i])) ==> Run(Start, kinds).Success?
  {
    if forall i :: 0 <= i < |kinds| ==> !ItemsKeyed(kinds[i]) {
      assert forall sec :: Keyed(sec) ==> SectionDict(Start.specs, sec) == [];
      NoItemsKeyNoFailure(Start, kinds);
    }
  }

  /** From the start, no error unless some line reads as a bullet keyed `items`. */
  lemma NoItemsLineNoFailure(lines: seq<string>)
    ensures (forall line :: line in lines ==> !ItemsKeyed(Classify(line))) ==> Run(Start, Lex(lines)).Success?
  {
    if forall line :: line in lines ==> !ItemsKeyed(Classify(line)) {
      var kinds := Lex(lines);
      forall i | 0 <= i < |kinds|
        ensures !ItemsKeyed(kinds[i])
      {
        assert lines[i] in lines;
      }
      NoFailureFromStart(kinds);
    }
  }

  /** extract_technical_specs: split the text into lines and run the loop from an
      empty record with no current section. */
  method ExtractTechnicalSpecs(drawingText: string) returns (r: Result<Specs, ParseError>)
    ensures var run := Run(Start, Lex(Split(drawingText, '\n')));
      && r.Success? == run.Success?
      && (r.Success? ==> r.value == run.value.specs)
    ensures r.Success? ==> (forall f ::
      HeaderValue(r.value, f) == match LastHeader(Lex(Split(drawingText, '\n')), f) case Some(v) => v case None => "")
    ensures (forall line :: line in Split(drawingText, '\n') ==> !ItemsKeyed(Classify(line))) ==> r.Success?
  {
    var lines := Split(drawingText, '\n');
    var kinds := Lex(lines);
    r := ScanLines(kinds);
    HeadersFromStart(kinds);
    NoItemsLineNoFailure(lines);
  }

  /** The loop of extract_technical_specs over the read lines, one line at a time,
      returning at the first line that raises. */
  method ScanLines(kinds: seq<LineKind>) returns (r: Result<Specs, ParseError>)
    ensures r.Success? == Run(Start, kinds).Success?
    ensures r.Success? ==> r.value == Run(Start, kinds).value.specs
  {
    var st := Start;
    var i := 0;
    while i < |kinds|
      invariant 0 <= i <= |kinds|
      invariant Run(Start, kinds) == Run(st, kinds[i..])
    {
      assert kinds[i..][1..] == kinds[i + 1..];
      match Apply(st, kinds[i])
      case Failure(e) =>
        return Failure(e);
      case Success(next) =>
        st := next;
      i := i + 1;
    }
    r := Success(st.specs);
  }
}

=== FILE: ordered_dict.dfy ===
/**
 A Python `dict` with string keys: key/value pairs kept in insertion order.
 Assigning to a key that is already present replaces its value in place;
 assigning to a new key appends it.
 */
module OrderedDict {
  import opened Wrappers

  type Dict<V> = seq<(string, V)>

  /** The keys in insertion order, as `list(d)`. */
  function Keys<V>(d: Dict<V>): (ks: seq<string>)
    ensures |ks| == |d|
    ensures forall i :: 0 <= i < |d| ==> ks[i] == d[i].0
  {
    if d == [] then [] else [d[0].0] + Keys(d[1..])
  }

  /** Every key occurs once, as in any dict built with `Set` from the empty one. */
  predicate NoDuplicateKeys<V>(d: Dict<V>) {
    forall i, j :: 0 <= i < j < |d| ==> d[i].0 != d[j].0
  }

  /** `d.get(k)`: the value stored under `k`, if any. */
  function Get<V>(d: Dict<V>, k: string): (r: Option<V>)
    ensures r.Some? <==> k in Keys(d)
    ensures r.Some? ==> (k, r.value) in d
  {
    if d == [] then None
    else if d[0].0 == k then Some(d[0].1)
    else Get(d[1..], k)
  }

  /** `d[k] = v` */
  function Set<V>(d: Dict<V>, k: string, v: V): (r: Dict<V>)
    ensures Keys(r) == if k in Keys(d) then Keys(d) else Keys(d) + [k]
  {
    if d == [] then [(k, v)]
    else if d[0].0 == k then
      var r := [(k, v)] + d[1..];
      assert Keys(r) == Keys(d);
      r
    else
      var tail := Set(d[1..], k, v);
      var r := [d[0]] + tail;
      assert r[1..] == tail;
      r
  }

  /** After `d[k] = v`, looking `k` up gives `v`. */
  lemma {:induction false} SetGetSame<V>(d: Dict<V>, k: string, v: V)
    ensures Get(Set(d, k, v), k) == Some(v)
    decreases |d|
  {
    if d != [] && d[0].0 != k {
      var tail := Set(d[1..], k, v);
      assert ([d[0]] + tail)[1..] == tail;
      SetGetSame(d[1..], k, v);
    }
  }

  /** After `d[k] = v`, every other key looks up as before. */
  lemma {:induction false} SetGetOther<V>(d: Dict<V>, k: string, v: V, k': string)
    requires k' != k
    ensures Get(Set(d, k, v), k') == Get(d, k')
    decreases |d|
  {
    if d == [] {
    } else if d[0].0 == k {
      assert ([(k, v)] + d[1..])[1..] == d[1..];
    } else {
      var tail := Set(d[1..], k, v);
      assert ([d[0]] + tail)[1..] == tail;
      SetGetOther(d[1..], k, v, k');
    }
  }

  /** After `d[k] = v`, every other key looks up as before; all keys at once. */
  lemma SetGetOthers<V>(d: Dict<V>, k: string, v: V)
    ensures forall k' :: k' != k ==> Get(Set(d, k, v), k') == Get(d, k')
  {
    forall k' | k' != k
      ensures Get(Set(d, k, v), k') == Get(d, k')
    {
      SetGetOther(d, k, v, k');
    }
  }

  /** Assignment keeps every key unique. */
  lemma SetKeepsKeysUnique<V>(d: Dict<V>, k: string, v: V)
    requires NoDuplicateKeys(d)
    ensures NoDuplicateKeys(Set(d, k, v))
  {
    var r := Set(d, k, v);
    assert forall i :: 0 <= i < |r| ==> r[i].0 == Keys(r)[i];
  }

  /** Writing a key twice keeps only the second value: the last write wins. */
  lemma {:induction false} SetSetSameKey<V>(d: Dict<V>, k: string, v1: V, v2: V)
    ensures Set(Set(d, k, v1), k, v2) == Set(d, k, v2)
    decreases |d|
  {
    if d != [] && d[0].0 != k {
      var tail := Set(d[1..], k, v1);
      assert Set(d, k, v1) == [d[0]] + tail;
      assert ([d[0]] + tail)[1..] == tail;
      SetSetSameKey(d[1..], k, v1, v2);
    }
  }
}

=== FILE: strings.dfy ===
/**
 The few Python `str` operations the modelled code relies on. A Dafny `string`
 is a sequence of Unicode scalar values. A Python `str` is a sequence of code
 points and may also hold lone surrogates (U+D800 to U+DFFF); such strings are
 outside this model.
 */
module Strings {
  import opened Wrappers

  /** `s.startswith(p)` */
  predicate StartsWith(s: string, p: string): (b: bool)
    ensures b <==> |p| <= |s| && forall i :: 0 <= i < |p| ==> s[i] == p[i]
    ensures b <==> OccursAt(s, p, 0)
  {
    |p| <= |s| && s[..|p|] == p
  }

  /** `pat` occurs in `s` starting at index `i`. */
  predicate OccursAt(s: string, pat: string, i: int) {
    0 <= i && i + |pat| <= |s| && s[i..i + |pat|] == pat
  }

  /** The leftmost occurrence of `pat` in `s` at or after `from`, as Python's `s.find(pat, from)`. */
  function FindFrom(s: string, pat: string, from: nat): (r: Option<nat>)
    ensures r.Some? ==> from <= r.value && OccursAt(s, pat, r.value)
    ensures forall j :: from <= j && (r.None? || j < r.value) ==> !OccursAt(s, pat, j)
    decreases |s| - from
  {
    if |s| < from + |pat| then None
    else if s[from..from + |pat|] == pat then Some(from)
    else FindFrom(s, pat, from + 1)
  }

  /** The leftmost occurrence of `pat` in `s`. */
  function Find(s: string, pat: string): (r: Option<nat>)
    ensures r.Some? ==> OccursAt(s, pat, r.value)
    ensures forall j :: 0 <= j && (r.None? || j < r.value) ==> !OccursAt(s, pat, j)
  {
    FindFrom(s, pat, 0)
  }

  /** `pat in s` */
  function Contains(s: string, pat: string): (b: bool)
    ensures b <==> exists i :: OccursAt(s, pat, i)
  {
    Find(s, pat).Some?
  }

  /** A pattern with a character the string lacks does not occur in it. */
  lemma AbsentChar(s: string, pat: string, c: char)
    requires c in pat && c !in s
    ensures !Contains(s, pat)
  {
    var k := IndexOfChar(pat, c);
    forall i | 0 <= i
      ensures !OccursAt(s, pat, i)
    {
      if i + |pat| <= |s| {
        assert s[i..i + |pat|][k] == s[i + k];
      }
    }
  }

  /** The first index of `c` in `s`. */
  function IndexOfChar(s: string, c: char): (i: nat)
    requires c in s
    ensures i < |s| && s[i] == c && c !in s[..i]
  {
    if s[0] == c then 0 else 1 + IndexOfChar(s[1..], c)
  }

  /** `sep.join(parts)` for a one-character separator. */
  function Join(parts: seq<string>, sep: char): string
  {
    if |parts| == 0 then ""
    else if |parts| == 1 then parts[0]
    else parts[0] + [sep] + Join(parts[1..], sep)
  }

  /** `s.split(sep)` for a one-character separator: one more part than there are separators. */
  function Split(s: string, sep: char): (parts: seq<string>)
    ensures |parts| >= 1
    ensures forall k :: 0 <= k < |parts| ==> sep !in parts[k]
    ensures Join(parts, sep) == s
    decreases |s|
  {
    if sep !in s then [s]
    else
      var i := IndexOfChar(s, sep);
      var rest := Split(s[i + 1..], sep);
      assert ([s[..i]] + rest)[1..] == rest;
      assert s == s[..i] + [sep] + s[i + 1..];
      [s[..i]] + rest
  }

  /** Joining parts with `sep` puts the separator right after the first part. */
  lemma JoinCons(p: string, rest: seq<string>, sep: char)
    requires |rest| >= 1
    ensures Join([p] + rest, sep) == p + [sep] + Join(rest, sep)
  {
    assert ([p] + rest)[1..] == rest;
  }

  /** A suffix of the parts, joined, is its first part, the separator, and the rest joined. */
  lemma JoinFrom(parts: seq<string>, k: nat, sep: char)
    requires k + 1 < |parts|
    ensures Join(parts[k..], sep) == parts[k] + [sep] + Join(parts[k + 1..], sep)
  {
    assert parts[k..] == [parts[k]] + parts[k + 1..];
    JoinCons(parts[k], parts[k + 1..], sep);
  }

  /** Appending one more part adds the separator and that part at the end. */
  lemma {:induction false} JoinSnoc(parts: seq<string>, last: string, sep: char)
    requires |parts| >= 1
    ensures Join(parts + [last], sep) == Join(parts, sep) + [sep] + last
    decreases |parts|
  {
    if |parts| == 1 {
      JoinCons(parts[0], [last], sep);
      assert parts + [last] == [parts[0]] + [last];
    } else {
      assert parts + [last] == [parts[0]] + (parts[1..] + [last]);
      JoinCons(parts[0], parts[1..] + [last], sep);
      JoinSnoc(parts[1..], last, sep);
      JoinCons(parts[0], parts[1..], sep);
      assert parts == [parts[0]] + parts[1..];
    }
  }

  /** Joining two non-empty runs of parts puts one separator between their joins. */
  lemma {:induction false} JoinConcat(a: seq<string>, b: seq<string>, sep: char)
    requires |a| >= 1 && |b| >= 1
    ensures Join(a + b, sep) == Join(a, sep) + [sep] + Join(b, sep)
    decreases |a|
  {
    if |a| == 1 {
      assert a + b == [a[0]] + b;
      JoinCons(a[0], b, sep);
    } else {
      assert a + b == [a[0]] + (a[1..] + b);
      JoinCons(a[0], a[1..] + b, sep);
      JoinConcat(a[1..], b, sep);
      JoinCons(a[0], a[1..], sep);
      assert a == [a[0]] + a[1..];
    }
  }

  /** An empty part between two runs of parts doubles the separator between their joins. */
  lemma JoinAroundEmpty(parts: seq<string>, rest: seq<string>, sep: char)
    requires |parts| >= 1 && |rest| >= 1
    ensures Join(parts + [""] + rest, sep) == Join(parts, sep) + [sep, sep] + Join(rest, sep)
  {
    assert parts + [""] + rest == parts + ([""] + rest);
    JoinConcat(parts, [""] + rest, sep);
    JoinCons("", rest, sep);
    SeparatorTwice(Join(parts, sep), Join(rest, sep), sep);
  }

  lemma SeparatorTwice(a: string, b: string, sep: char)
    ensures a + [sep] + ("" + [sep] + b) == a + [sep, sep] + b
  {
  }

  /** Splitting undoes joining, provided no part contains the separator. */
  lemma {:induction false} SplitJoin(parts: seq<string>, sep: char)
    requires |parts| >= 1
    requires forall k :: 0 <= k < |parts| ==> sep !in parts[k]
    ensures Split(Join(parts, sep), sep) == parts
    decreases |parts|
  {
    if |parts| > 1 {
      var p := parts[0];
      var rest := parts[1..];
      var s := Join(parts, sep);
      assert s == p + [sep] + Join(rest, sep);
      assert s[|p|] == sep;
      var i := IndexOfChar(s, sep);
      assert forall j :: 0 <= j < |p| ==> s[j] == p[j];
      assert i == |p|;
      assert s[..i] == p;
      assert s[i + 1..] == Join(rest, sep);
      SplitJoin(rest, sep);
      assert parts == [p] + rest;
    }
  }

  /** The characters for which Python's `str.isspace()` holds, i.e. those `str.strip()` removes. */
  predicate IsSpace(c: char) {
    || '\t' <= c <= '\r'
    || '\U{001C}' <= c <= '\U{001F}'
    || c == ' '
    || c == '\U{0085}'
    || c == '\U{00A0}'
    || c == '\U{1680}'
    || '\U{2000}' <= c <= '\U{200A}'
    || c == '\U{2028}'
    || c == '\U{2029}'
    || c == '\U{202F}'
    || c == '\U{205F}'
    || c == '\U{3000}'
  }

  /** `s.lstrip()`: the longest suffix of `s` that does not start with whitespace. */
  function TrimStart(s: string): (r: string)
    ensures |r| <= |s| && r == s[|s| - |r|..]
    ensures forall k :: 0 <= k < |s| - |r| ==> IsSpace(s[k])
    ensures r == [] || !IsSpace(r[0])
  {
    if |s| > 0 && IsSpace(s[0]) then TrimStart(s[1..]) else s
  }

  /** `s.rstrip()`: the longest prefix of `s` that does not end with whitespace. */
  function TrimEnd(s: string): (r: string)
    ensures |r| <= |s| && r == s[..|r|]
    ensures forall k :: |r| <= k < |s| ==> IsSpace(s[k])
    ensures r == [] || !IsSpace(r[|r| - 1])
  {
    if |s| > 0 && IsSpace(s[|s| - 1]) then TrimEnd(s[..|s| - 1]) else s
  }

  /** Stripping only removes characters: whatever the result holds, the text held. */
  lemma StripInside(s: string)
    ensures forall c :: c in Strip(s) ==> c in s
  {
    var t := TrimStart(s);
    assert t == s[|s| - |t|..];
    assert Strip(s) == t[..|Strip(s)|];
  }

  /** `s.strip()` */
  function Strip(s: string): (r: string)
    ensures |r| <= |s|
    ensures r == [] || (!IsSpace(r[0]) && !IsSpace(r[|r| - 1]))
  {
    TrimEnd(TrimStart(s))
  }

  /** Stripping a string that neither starts nor ends with whitespace leaves it as it is. */
  lemma StripUntrimmed(s: string)
    requires s == [] || (!IsSpace(s[0]) && !IsSpace(s[|s| - 1]))
    ensures Strip(s) == s
  {
  }

  /** `str.strip()` is idempotent. */
  lemma StripIdempotent(s: string)
    ensures Strip(Strip(s)) == Strip(s)
  {
    StripUntrimmed(Strip(s));
  }

  /** The ASCII part of `str.lower()`. */
  function LowerChar(c: char): char {
    if 'A' <= c <= 'Z' then (c as int + 32) as char else c
  }

  /** `s.lower()` restricted to ASCII letters; every other character is kept. */
  function Lower(s: string): (r: string)
    ensures |r| == |s|
    ensures forall i :: 0 <= i < |r| ==> !('A' <= r[i] <= 'Z')
    ensures forall i {:trigger r[i]} :: 0 <= i < |s| && !('A' <= s[i] <= 'Z') ==> r[i] == s[i]
    ensures forall i {:trigger r[i]} :: 0 <= i < |s| && 'A' <= s[i] <= 'Z' ==> 'a' <= r[i] <= 'z' && r[i] as int == s[i] as int + 32
  {
    seq(|s|, i requires 0 <= i < |s| => LowerChar(s[i]))
  }
}

=== FILE: team_chat.dfy ===
/**
 How the team chat's result is chosen once the conversation is over: the
 newest message from the project manager that mentions a final plan, in any
 letter case, is returned as the plan; when there is none, the whole
 conversation is returned as sender/content records, in order. The chat itself,
 which produces the messages, is not modelled: its message list is the input.
 */
module TeamChat {
  import opened Wrappers
  import opened Strings

  /** The name of the project-manager agent in the chat. */
  const ProjectManagerName: string := "Project_Manager"

  /** The phrase, in lower case, that marks a message as the final plan. */
  const FinalPlanPhrase: string := "final plan"

  /** A message field: absent from the message, present but `None`, or a string. */
  datatype Field = Missing | Null | Str(text: string)

  /** A chat message with its two fields of interest. */
  datatype Message = Message(sender: Field, content: Field)

  /** One record of the fallback conversation: `msg.get(...)` of each field, so an
      absent field reads as `None`. */
  datatype Entry = Entry(sender: Field, content: Field)

  /** What the chat returns: the plan text, or the conversation. */
  datatype ChatResult = FinalPlan(plan: string) | Conversation(entries: seq<Entry>)

  /** The one way the selection raises: lower-casing a project-manager message whose
      content is `None`. */
  datatype ChatError = ContentNotText

  /** The field as `dict.get` returns it. */
  function Got(f: Field): (g: Field)
    ensures !g.Missing?
    ensures f.Missing? ==> g == Null
    ensures !f.Missing? ==> g == f
  {
    if f.Missing? then Null else f
  }

  predicate FromManager(m: Message) {
    m.sender == Str(ProjectManagerName)
  }

  /** The content lowered, with an absent content read as the empty string. */
  function LoweredContent(m: Message): Option<string> {
    match m.content
    case Missing => Some("")
    case Null => None
    case Str(text) => Some(Lower(text))
  }

  /** The message the scan stops at with a plan. */
  predicate Qualifies(m: Message) {
    FromManager(m) && m.content.Str? && Contains(Lower(m.content.text), FinalPlanPhrase)
  }

  /** The message the scan stops at by raising. */
  predicate Crashes(m: Message) {
    FromManager(m) && m.content.Null?
  }

  /** The scan stops at this message, one way or the other. */
  predicate Decides(m: Message) {
    Qualifies(m) || Crashes(m)
  }

  /** No message in `msgs[from..upto]` stops the scan. */
  predicate Undecided(msgs: seq<Message>, from: nat, upto: nat)
    requires upto <= |msgs|
  {
    forall j :: from <= j < upto ==> !Decides(msgs[j])
  }

  /** Where the scan ends. */
  datatype Verdict = Plan(text: string) | Crash | NoPlan

  /** One step of the scan: a project-manager message whose content is `None`
      raises when lowered; one whose lowered content (an absent content reads as
      empty) mentions the phrase is the plan; anything else moves the scan on. */
  function Inspect(m: Message): (v: Verdict)
    ensures v.Crash? <==> Crashes(m)
    ensures v.Plan? <==> Qualifies(m)
    ensures v.Plan? ==> v.text == m.content.text
  {
    if m.sender != Str(ProjectManagerName) then NoPlan
    else match LoweredContent(m)
      case None => Crash
      case Some(low) =>
        if Contains(low, FinalPlanPhrase) then Plan(m.content.text)
        else
          assert m.content.Missing? ==> !OccursAt(low, FinalPlanPhrase, 0);
          NoPlan
  }

  /** Some message among the first `n` qualifies and has `text` as its content. */
  predicate QualifyingAmong(msgs: seq<Message>, n: nat, text: string)
    requires n <= |msgs|
  {
    exists i :: 0 <= i < n && Qualifies(msgs[i]) && msgs[i].content.text == text
  }

  /** Some message among the first `n` raises when inspected. */
  predicate CrashingAmong(msgs: seq<Message>, n: nat)
    requires n <= |msgs|
  {
    exists i :: 0 <= i < n && Crashes(msgs[i])
  }

  /** The scan over the first `n` messages, newest first, stopping at the first
      message that decides. */
  function ScanBack(msgs: seq<Message>, n: nat): (v: Verdict)
    requires n <= |msgs|
    ensures v.Plan? ==> Contains(Lower(v.text), FinalPlanPhrase)
    ensures v.Plan? ==> QualifyingAmong(msgs, n, v.text)
    ensures v.Crash? ==> CrashingAmong(msgs, n)
  {
    if n == 0 then NoPlan
    else
      var v := Inspect(msgs[n - 1]);
      if v.NoPlan? then ScanBack(msgs, n - 1) else v
  }

  /** What the scan finds: nothing when no message decides; otherwise a message
      that decides with no deciding message after it, whose content is the plan. */
  lemma ScanBackMeaning(msgs: seq<Message>, n: nat)
    requires n <= |msgs|
    ensures ScanBack(msgs, n).NoPlan? <==> Undecided(msgs, 0, n)
    ensures ScanBack(msgs, n).Plan? ==>
      (exists i :: 0 <= i < n && Qualifies(msgs[i]) && ScanBack(msgs, n).text == msgs[i].content.text && Undecided(msgs, i + 1, n))
    ensures ScanBack(msgs, n).Crash? ==> exists i :: 0 <= i < n && Crashes(msgs[i]) && Undecided(msgs, i + 1, n)
  {
    ScanBackNone(msgs, n);
    ScanBackDecider(msgs, n);
  }

  /** The scan finds nothing exactly when no message decides. */
  lemma {:induction false} ScanBackNone(msgs: seq<Message>, n: nat)
    requires n <= |msgs|
    ensures ScanBack(msgs, n).NoPlan? <==> Undecided(msgs, 0, n)
    decreases n
  {
    if n > 0 {
      ScanBackNone(msgs, n - 1);
      if Inspect(msgs[n - 1]).NoPlan? {
        assert ScanBack(msgs, n) == ScanBack(msgs, n - 1);
        assert !Decides(msgs[n - 1]);
      } else {
        assert Decides(msgs[n - 1]);
      }
    }
  }

  /** A plan or a crash comes from a deciding message with no deciding message after it. */
  lemma ScanBackDecider(msgs: seq<Message>, n: nat)
    requires n <= |msgs|
    ensures ScanBack(msgs, n).Plan? ==>
      (exists i :: 0 <= i < n && Qualifies(msgs[i]) && ScanBack(msgs, n).text == msgs[i].content.text && Undecided(msgs, i + 1, n))
    ensures ScanBack(msgs, n).Crash? ==> exists i :: 0 <= i < n && Crashes(msgs[i]) && Undecided(msgs, i + 1, n)
  {
    if ScanBack(msgs, n).Plan? {
      var i := PlanSource(msgs, n);
    } else if ScanBack(msgs, n).Crash? {
      var i := CrashSource(msgs, n);
    }
  }

  /** A message the scan passes over extends the stretch with no deciding message. */
  lemma PassedOver(msgs: seq<Message>, i: nat, n: nat)
    requires 0 < n <= |msgs| && i < n
    requires Inspect(msgs[n - 1]).NoPlan? && Undecided(msgs, i, n - 1)
    ensures Undecided(msgs, i, n)
  {
  }

  /** The position of the message a plan comes from. */
  lemma {:induction false} PlanSource(msgs: seq<Message>, n: nat) returns (i: nat)
    requires n <= |msgs| && ScanBack(msgs, n).Plan?
    ensures i < n && Qualifies(msgs[i]) && ScanBack(msgs, n).text == msgs[i].content.text
    ensures Undecided(msgs, i + 1, n)
    decreases n
  {
    if Inspect(msgs[n - 1]).NoPlan? {
      assert ScanBack(msgs, n) == ScanBack(msgs, n - 1);
      i := PlanSource(msgs, n - 1);
      PassedOver(msgs, i + 1, n);
    } else {
      i := n - 1;
    }
  }

  /** The position of the message a crash comes from. */
  lemma {:induction false} CrashSource(msgs: seq<Message>, n: nat) returns (i: nat)
    requires n <= |msgs| && ScanBack(msgs, n).Crash?
    ensures i < n && Crashes(msgs[i])
    ensures Undecided(msgs, i + 1, n)
    decreases n
  {
    if Inspect(msgs[n - 1]).NoPlan? {
      assert ScanBack(msgs, n) == ScanBack(msgs, n - 1);
      i := CrashSource(msgs, n - 1);
      PassedOver(msgs, i + 1, n);
    } else {
      i := n - 1;
    }
  }

  /** The fallback: one record per message, in order. */
  function Project(msgs: seq<Message>): (entries: seq<Entry>)
    ensures |entries| == |msgs|
    ensures forall i :: 0 <= i < |msgs| ==> entries[i] == Entry(Got(msgs[i].sender), Got(msgs[i].content))
  {
    seq(|msgs|, i requires 0 <= i < |msgs| => Entry(Got(msgs[i].sender), Got(msgs[i].content)))
  }

  /** The result of the team chat, given its messages. */
  function TeamResult(msgs: seq<Message>): (r: Result<ChatResult, ChatError>)
    ensures r.Failure? <==> ScanBack(msgs, |msgs|).Crash?
    ensures r.Success? && r.value.FinalPlan? <==> ScanBack(msgs, |msgs|).Plan?
    ensures r.Success? && r.value.Conversation? ==> r.value.entries == Project(msgs)
  {
    match ScanBack(msgs, |msgs|)
    case Plan(text) => Success(FinalPlan(text))
    case Crash => Failure(ContentNotText)
    case NoPlan => Success(Conversation(Project(msgs)))
  }

  /** The selection as the source runs it: a loop over the messages from the newest
      back, returning at the first that decides, else the conversation. */
  method SelectResult(msgs: seq<Message>) returns (r: Result<ChatResult, ChatError>)
    ensures r == TeamResult(msgs)
  {
    var i := |msgs|;
    while i > 0
      invariant 0 <= i <= |msgs|
      invariant ScanBack(msgs, |msgs|) == ScanBack(msgs, i)
    {
      var m := msgs[i - 1];
      if m.sender == Str(ProjectManagerName) {
        match m.content
        case Null =>
          return Failure(ContentNotText);
        case Missing =>
        case Str(text) =>
          if Contains(Lower(text), FinalPlanPhrase) {
            return Success(FinalPlan(text));
          }
      }
      i := i - 1;
    }
    var entries := [];
    var k := 0;
    while k < |msgs|
      invariant 0 <= k <= |msgs|
      invariant entries == Project(msgs[..k])
    {
      entries := entries + [Entry(Got(msgs[k].sender), Got(msgs[k].content))];
      k := k + 1;
    }
    assert msgs[..k] == msgs;
    return Success(Conversation(entries));
  }

  /** The newest deciding message decides: its content is the plan, or the
      selection raises because of it. */
  lemma {:induction false} NewestDecidingWins(msgs: seq<Message>, i: nat, n: nat)
    requires i < n <= |msgs|
    requires Decides(msgs[i]) && Undecided(msgs, i + 1, n)
    ensures ScanBack(msgs, n) == if Crashes(msgs[i]) then Crash else Plan(msgs[i].content.text)
    decreases n
  {
    if n - 1 != i {
      assert !Decides(msgs[n - 1]);
      NewestDecidingWins(msgs, i, n - 1);
    }
  }

  /** The final plan is the content of the newest qualifying message, as written,
      provided no newer project-manager message has `None` content. */
  lemma PlanIsNewestQualifying(msgs: seq<Message>, i: nat)
    requires i < |msgs| && Qualifies(msgs[i]) && Undecided(msgs, i + 1, |msgs|)
    ensures TeamResult(msgs) == Success(FinalPlan(msgs[i].content.text))
  {
    NewestDecidingWins(msgs, i, |msgs|);
  }

  /** A qualifying last message is the plan, whatever came before. */
  lemma LastQualifyingWins(msgs: seq<Message>, m: Message)
    requires Qualifies(m)
    ensures TeamResult(msgs + [m]) == Success(FinalPlan(m.content.text))
  {
    PlanIsNewestQualifying(msgs + [m], |msgs|);
  }

  /** With no deciding message, the result is the whole conversation, same length,
      same order, each field as `dict.get` reads it. */
  lemma NoPlanGivesConversation(msgs: seq<Message>)
    requires Undecided(msgs, 0, |msgs|)
    ensures TeamResult(msgs).Success? && TeamResult(msgs).value.Conversation?
    ensures |TeamResult(msgs).value.entries| == |msgs|
    ensures forall i :: 0 <= i < |msgs| ==>
      TeamResult(msgs).value.entries[i] == Entry(Got(msgs[i].sender), Got(msgs[i].content))
  {
    ScanBackMeaning(msgs, |msgs|);
  }

  /** A message from anyone but the project manager never changes the outcome of
      the scan, whatever it says. */
  lemma {:induction false} OtherSendersIgnored(a: seq<Message>, m: Message, b: seq<Message>)
    requires !FromManager(m)
    ensures ScanBack(a + [m] + b, |a + [m] + b|) == ScanBack(a + b, |a + b|)
    decreases |b|
  {
    if b == [] {
      assert (a + [m] + b)[..|a|] == a;
      ScanPrefix(a + [m] + b, a);
      assert a + b == a;
    } else {
      var b' := b[..|b| - 1];
      var last := b[|b| - 1];
      assert a + [m] + b == (a + [m] + b') + [last];
      assert a + b == (a + b') + [last];
      OtherSendersIgnored(a, m, b');
      SnocSameScan(a + [m] + b', a + b', last);
    }
  }

  /** Two lists the scan cannot tell apart stay so when the same message is added to both. */
  lemma SnocSameScan(x: seq<Message>, y: seq<Message>, last: Message)
    requires ScanBack(x, |x|) == ScanBack(y, |y|)
    ensures ScanBack(x + [last], |x + [last]|) == ScanBack(y + [last], |y + [last]|)
  {
    ScanSnoc(x, last);
    ScanSnoc(y, last);
  }

  /** The scan of a list ending in one more message looks at that message first. */
  lemma ScanSnoc(msgs: seq<Message>, m: Message)
    ensures ScanBack(msgs + [m], |msgs| + 1) ==
      if Crashes(m) then Crash
      else if Qualifies(m) then Plan(m.content.text)
      else ScanBack(msgs, |msgs|)
  {
    ScanPrefix(msgs + [m], msgs);
  }

  /** The scan over the first `|p|` messages only looks at that prefix. */
  lemma {:induction false} ScanPrefix(msgs: seq<Message>, p: seq<Message>)
    requires p <= msgs
    ensures ScanBack(msgs, |p|) == ScanBack(p, |p|)
  {
    ScanPrefixUpTo(msgs, p, |p|);
  }

  lemma {:induction false} ScanPrefixUpTo(msgs: seq<Message>, p: seq<Message>, n: nat)
    requires p <= msgs && n <= |p|
    ensures ScanBack(msgs, n) == ScanBack(p, n)
    decreases n
  {
    if n > 0 {
      assert msgs[n - 1] == p[n - 1];
      ScanPrefixUpTo(msgs, p, n - 1);
    }
  }

  /** The phrase is found in any letter case: any spelling whose lowered form is
      the phrase, anywhere in a project-manager message, makes it qualify. */
  lemma AnyCaseQualifies(before: string, phrase: string, after: string)
    requires Lower(phrase) == FinalPlanPhrase
    ensures Qualifies(Message(Str(ProjectManagerName), Str(before + phrase + after)))
  {
    var text := before + phrase + after;
    var low := Lower(text);
    var at := |before|;
    forall k | 0 <= k < |phrase|
      ensures low[at + k] == FinalPlanPhrase[k]
    {
      assert text[at + k] == phrase[k];
      assert Lower(phrase)[k] == LowerChar(phrase[k]);
    }
    assert low[at..at + |phrase|] == FinalPlanPhrase;
    assert OccursAt(low, FinalPlanPhrase, at);
  }

  /** A message with no content field never stops the scan: it reads as empty. */
  lemma MissingContentUndecided(m: Message)
    requires m.content.Missing?
    ensures !Decides(m)
  {
  }

  /** Lower-casing the content first changes nothing: the test already ignores case. */
  lemma LoweredContentSameVerdict(sender: Field, text: string)
    ensures Qualifies(Message(sender, Str(text))) <==> Qualifies(Message(sender, Str(Lower(text))))
  {
    assert Lower(Lower(text)) == Lower(text);
  }
}

=== FILE: wrappers.dfy ===
/** Failure-carrying result types shared by the other modules. */
module Wrappers {

  /** A value that may be absent. */
  datatype Option<+T> = None | Some(value: T)

  /** The outcome of an operation that can raise: a value or the error it raised. */
  datatype Result<+T, +E> = Success(value: T) | Failure(error: E)
}
